=== FILE: README.md ===
# team-match in Dafny

A model of the team-match lineup tool, with proofs. The tool is a small
React application. The user keeps a roster of players, joins players into
forced-opposite pairs, and asks for up to five lineup variations. In each
variation, both members of every pair play on opposite teams, and no two
variations share a signature.

The model has one module per source file of the core:

- `TeamGenerator` (`team_generator.dfy`) is the generator in
  `src/utils/teamGenerator.js`: the Fisher–Yates shuffle, the coin per
  pair, the signature, the bounded loop that collects distinct lineups, and
  the gate `canGenerateTeams`.
- `App` (`app.dfy`) is the screen state in `src/App.jsx`. Every handler is
  a pure transition. The invariant `App.Consistent` says:
  - player and pair ids are unique and below the counters that hand them out;
  - pairs are disjoint;
  - every paired player is on the roster.
- `DndArea` (`dnd_area.dfy`) is the click-to-pair panel, modelled as a
  state machine over two slots and a selection.
- `PlayerInput` (`player_input.dfy`) is the add-player form: trim, the
  blank check, and the case-insensitive duplicate check.
- `SoccerField` (`soccer_field.dfy`) is the lineup viewer: the formation
  table, shirt numbers, the carousel, and the same-half drag rule.
- `Screen` (`screen.dfy`) puts `App` and `DndArea` together: the roster
  state and the panel's slots, moved by the user's actions. It models the
  screen as written and a corrected screen (see Findings).
- Supporting modules:
  - `Seqs`: the `filter` used throughout, subsequences, and the "keep the
    first of each key" walk with the bounded attempt loop of
    `generateTeamVariations`, written once for any draw and any key.
  - `Types`: the records.
  - `Random`: draws from `Math.random`.
  - `StringOrder`: the default string order of `sort()`.
  - `Decimal`: the `${n}` in ids, with its parser.
  - `JsText`: `trim` and `toLowerCase`.

`Math.random` is a parameter: an infinite stream of draws in `[0, 1)`, read
through a cursor. Each generator operation returns the cursor after the
draws it took, and its contract says how many that is. Every property holds
for every stream.

The generator only ever takes paired players. It has no step that
distributes unpaired players, so the model has none either.

Removing a player leaves the shown lineups as they are, exactly as in the
source.

## Model

| member | source | states |
|---|---|---|
| TeamGenerator.Swap | src/utils/teamGenerator.js:13 | exchanges two positions, leaves every other position alone, and keeps the multiset |
| TeamGenerator.ShuffleDown | src/utils/teamGenerator.js:11-14 | the Fisher–Yates loop from index `i` down to 1 is a permutation and takes exactly `i` draws |
| TeamGenerator.Shuffle | src/utils/teamGenerator.js:9-16 | `shuffleArray` returns a permutation of its input and takes `length - 1` draws (none for an empty array) |
| TeamGenerator.Assign | src/utils/teamGenerator.js:32-41 | one coin per pair, in order: position `k` of team A gets player1 on heads (`r < 0.5`) and player2 on tails, and team B gets the other member |
| TeamGenerator.GenerateSingleLineup | src/utils/teamGenerator.js:25-44 | both teams have one player per pair, the lineup splits every pair across the teams in some order of the pairs, and it takes `2n - 1` draws (none for no pairs) |
| TeamGenerator.LineupCoversPairMembers | src/utils/teamGenerator.js:25-44 | the two teams together hold exactly the pair members, each as often as in the pairs: only paired players play |
| TeamGenerator.PairOnOppositeTeams | src/utils/teamGenerator.js:31-41 | each pair has one member in team A and the other in team B |
| TeamGenerator.PairOnExactlyOneSide | src/utils/teamGenerator.js:31-41 | when no player is in two pairs, each member of a pair is in exactly one team, and player1 is in A if and only if player2 is in B |
| TeamGenerator.OnlyPairMembersPlay | src/utils/teamGenerator.js:25-44 | anyone on a team is a member of some pair |
| TeamGenerator.OnePairLineup | src/utils/teamGenerator.js:25-44 | both orientations of a single pair split it and no other lineup does; the two are different lineups exactly when the pair holds two different players |
| TeamGenerator.LineupSignature | src/utils/teamGenerator.js:49-53 | the signature holds each team's names sorted: a sorted list with exactly that team's names, each as often as it occurs |
| TeamGenerator.SignatureEqualIff | src/utils/teamGenerator.js:49-53 | two lineups share a signature if and only if each team holds the same names the same number of times: the order of appending is forgotten, but the side a name is on is not |
| TeamGenerator.SwappedTeamsSignature | src/utils/teamGenerator.js:49-53 | swapping the teams keeps the signature only if both teams hold the same names |
| TeamGenerator.SignatureStringCollision | src/utils/teamGenerator.js:50-52 | the joined signature string identifies two lineups with different team rosters when names contain commas |
| TeamGenerator.SignatureStringAgrees | src/utils/teamGenerator.js:50-52 | when every name is non-empty and holds no `,` and no `\|`, two lineups get the same joined string if and only if they get the same signature, so the join loses information only through such names |
| TeamGenerator.SplitJoin | src/utils/teamGenerator.js:50-51 | splitting `join(',')` of comma-free names at its commas gives the names back |
| TeamGenerator.JoinInjective | src/utils/teamGenerator.js:50-51 | two lists of non-empty comma-free names that join to the same string are the same list |
| TeamGenerator.GenerateTeamVariations | src/utils/teamGenerator.js:62-84 | no pairs gives `[]` and takes no draws. Otherwise the result is exactly `Kept` of the attempts made: the first lineup of each signature among the lineups drawn on attempts 0, 1, ..., each attempt `k` drawing from `k` attempts' worth of draws past the cursor. The loop stops with `count` lineups or after `count * 10` attempts, and never early: before the last attempt fewer than `count` were kept. It returns the number of attempts and the cursor past their draws, at least one lineup when `count > 0`, lineups that split the pairs, and no two with one signature |
| TeamGenerator.AttemptDrawsProduct | src/utils/teamGenerator.js:72-74 | every attempt draws one lineup, so `k` attempts take `k` times the draws of one |
| TeamGenerator.KeptSound | src/utils/teamGenerator.js:72-80 | every kept lineup is a drawn one, so it splits the pairs; no two kept lineups share a signature; after `n > 0` attempts at least one is kept |
| TeamGenerator.EveryDrawnSignatureKept | src/utils/teamGenerator.js:77-80 | the signature of every drawn lineup is the signature of a kept one: a lineup is skipped only as a repeat |
| TeamGenerator.KeptAreFirstOfSignature | src/utils/teamGenerator.js:77-80 | every kept lineup is a drawn lineup with no earlier draw of its signature: a lineup with a new signature is never skipped |
| Seqs.Filter | src/App.jsx:90 | `filter` keeps exactly the elements that pass, each as often as before and none that fail, in their original order |
| Seqs.CollectFirsts | src/utils/teamGenerator.js:67-81 | the loop with its `Set` of seen keys keeps exactly the first of each key among the values drawn, stops with `count` kept or `maxAttempts` drawn, and had fewer than `count` before its last draw |
| Seqs.FirstOfEachKeyStep | src/utils/teamGenerator.js:77-80 | with the seen set equal to the kept keys, a drawn value is kept and its key added exactly when the set lacks its key, and otherwise nothing changes |
| TeamGenerator.KeptInDrawOrder | src/utils/teamGenerator.js:72-80 | the kept lineups are a subsequence of the drawn ones: `push` keeps draw order |
| Seqs.FirstOfEachKeyInOrder | src/utils/teamGenerator.js:77-80 | the kept elements appear in the order of the input |
| Seqs.FirstOfEachKeySound | src/utils/teamGenerator.js:77-80 | the walk keeps only elements of its input, and no two kept elements share a key |
| Seqs.FirstOfEachKeyComplete | src/utils/teamGenerator.js:77-80 | every element's key is the key of a kept element |
| Seqs.FirstOfEachKeyFirsts | src/utils/teamGenerator.js:77-80 | every kept element is an element with no earlier element of its key |
| Seqs.KeySetHas | src/utils/teamGenerator.js:68-78 | a key is in the set of kept keys exactly when some kept element has it: `signatures.has` agrees with the kept lineups |
| TeamGenerator.AtMostTwoForOnePair | src/utils/teamGenerator.js:62-84 | lineups of one pair with distinct signatures number at most two, so one pair yields at most two variations |
| TeamGenerator.CanGenerateTeams | src/utils/teamGenerator.js:90-93 | true if and only if there is at least one pair |
| Random.IndexBelow | src/utils/teamGenerator.js:12 | `Math.floor(Math.random() * (i + 1))` is an index below `i + 1` |
| StringOrder.Sort | src/utils/teamGenerator.js:50-51 | `sort()` returns a sorted permutation of the names |
| StringOrder.SortEqualIff | src/utils/teamGenerator.js:50-51 | two name lists sort to the same list if and only if they are permutations of each other |
| StringOrder.LeTotal | src/utils/teamGenerator.js:50-51 | the default string order compares any two strings |
| Decimal.Format | src/App.jsx:43 | `${n}` is a non-empty run of decimal digits with no leading zero; `Decimal.ParseFormat` reads it back |
| Decimal.ParseFormat | src/App.jsx:43 | reading back the decimal digits `${n}` writes gives `n` again |
| Decimal.IdNumberFormat | src/App.jsx:54 | the number in the id `prefix + ${n}` reads back as `n` |
| JsText.LeadingWhitespace | src/components/PlayerInput.jsx:9 | the count of leading characters `trim` removes: all of them are whitespace and the next character, if any, is not |
| JsText.TrailingWhitespace | src/components/PlayerInput.jsx:9 | the count of trailing characters `trim` removes: all of them are whitespace and the character before them, if any, is not |
| JsText.Trim | src/components/PlayerInput.jsx:9 | the trimmed string is no longer than the input, does not start or end with whitespace, and is empty exactly when the input is all whitespace |
| JsText.TrimIsInfix | src/components/PlayerInput.jsx:9 | the trimmed string is the part of the input that starts after its leading whitespace |
| JsText.TrimCutsOnlyWhitespace | src/components/PlayerInput.jsx:9 | everything `trim` cuts off is whitespace |
| JsText.TrimIdempotent | src/components/PlayerInput.jsx:9 | trimming twice equals trimming once |
| JsText.ToLower | src/components/PlayerInput.jsx:11 | `toLowerCase` keeps the length and maps each character on its own, `A`-`Z` to `a`-`z` and every other character to itself |
| JsText.ToLowerIdempotent | src/components/PlayerInput.jsx:11 | lower-casing twice equals lower-casing once |
| PlayerInput.FindByName | src/components/PlayerInput.jsx:11 | `find` returns the first player whose name matches ignoring case, and nothing exactly when no player matches |
| PlayerInput.HandleSubmit | src/components/PlayerInput.jsx:7-15 | a name is handed on if and only if its trimmed form is non-empty and no player has it ignoring case. What is handed on is the trimmed form, and the box is cleared only then |
| PlayerInput.AcceptedNameIsTrimmed | src/components/PlayerInput.jsx:9-12 | an accepted name is non-blank, has no whitespace at either end, and is its own trimmed form |
| PlayerInput.SubmitKeepsNamesDistinct | src/components/PlayerInput.jsx:11-12 | adding an accepted name keeps the roster's names distinct ignoring case |
| PlayerInput.CaseVariantRefused | src/components/PlayerInput.jsx:11 | a name that differs from an existing one only in case is refused and the box keeps its text |
| DndArea.PlayerClick | src/components/DndArea.jsx:85-108 | covers the handler's four cases (deselect, fill slot 1, fill slot 2 with a different player, highlight). A click fills at most one empty slot, and filling a slot clears the selection |
| DndArea.CreatePair | src/components/DndArea.jsx:110-117 | emits the two slot occupants if and only if both slots are filled with different ids, then empties the panel; otherwise nothing changes |
| DndArea.CanCreatePair | src/components/DndArea.jsx:130 | the create button is enabled only when both slots are filled, with two different players |
| DndArea.ClearSlots | src/components/DndArea.jsx:119-123 | both slots and the selection are empty afterwards |
| DndArea.RemoveSlot1 | src/components/DndArea.jsx:153 | empties slot 1 and nothing else |
| DndArea.RemoveSlot2 | src/components/DndArea.jsx:164 | empties slot 2 and nothing else |
| DndArea.DisplayPlayers | src/components/DndArea.jsx:126-128 | the pool shows exactly the available players not sitting in a slot, each as often as before and in their original order |
| DndArea.ClickFromDisplayKeepsSlotsDistinct | src/components/DndArea.jsx:85-128 | clicking a player shown in the pool never puts one player in both slots |
| DndArea.SlotsDistinctEverywhere | src/components/DndArea.jsx:110-130 | the other panel actions keep the slots distinct, and with distinct slots the create button is enabled exactly when both are filled |
| SoccerField.Slice | src/components/SoccerField.jsx:113-126 | `slice(start, end)` is the elements from `start` up to `end` clamped to the length, and is empty when the range is |
| SoccerField.GetFormation | src/components/SoccerField.jsx:109-129 | keeper, defenders, midfielders and forwards concatenate back to the team. There is one keeper unless the team is empty, and the defender and midfielder counts follow the table for 0-3, 4-5, 6-7, 8-9 and 10 or more players |
| SoccerField.ShirtNumbers | src/components/SoccerField.jsx:195-246 | one number per token; the keeper wears 1, and from the first defender on the numbers run 2, 3, ... with no gap across defenders, midfielders and forwards |
| SoccerField.ShirtNumbersOneToCount | src/components/SoccerField.jsx:195-246 | the shirts of a team read 1, 2, ..., n in formation order |
| SoccerField.Next | src/components/SoccerField.jsx:340-342 | the next index is always in range and is `(i + 1) mod n` from an index in range |
| SoccerField.Previous | src/components/SoccerField.jsx:336-338 | from an index in range the previous index is `(i + n - 1) mod n`; from an index past the end it is one less |
| SoccerField.NextPreviousInverse | src/components/SoccerField.jsx:336-342 | within range, next and previous undo each other |
| SoccerField.SelectTab | src/components/SoccerField.jsx:373-376 | a tab click selects that tab's lineup |
| SoccerField.StepNext | src/components/SoccerField.jsx:340-342 | the next arrow keeps the number of lineups and always lands on an existing one |
| SoccerField.StepPrevious | src/components/SoccerField.jsx:336-338 | the previous arrow keeps the number of lineups and, from an existing lineup, lands on an existing one |
| SoccerField.ReceiveAsWritten | src/components/SoccerField.jsx:324 | as written, a new list keeps the index where it was and only the count changes, so a list no longer than the index leaves it out of range |
| SoccerField.Receive | src/components/SoccerField.jsx:324 | corrected: a new list sets the index to 0, its first lineup, which is always in range |
| SoccerField.Apply | src/components/SoccerField.jsx:324-388 | one viewer event: a new list sets the count, and the index to 0 with the reset or leaves it as written; arrows and tabs keep the count and do nothing while there is no lineup; a rendered tab selects its lineup; with the reset the index stays on an existing lineup |
| SoccerField.Run | src/components/SoccerField.jsx:323-388 | with the correction, any sequence of new lists, arrow clicks and tab clicks keeps the index on an existing lineup |
| SoccerField.StaleIndexAfterRegenerate | src/components/SoccerField.jsx:324-388 | as written, five lineups, one back-click and a regenerate to two lineups leave index 4, which the back arrow cannot repair; with the reset, index 0 |
| SoccerField.DragKeyInjective | src/components/SoccerField.jsx:26 | the draggable id `${team}-${player.id}` determines both team and player |
| SoccerField.DragEnd | src/components/SoccerField.jsx:79-102 | only a drop over the token's own half changes anything. Such a drop moves that token by the delta from its last offset (the origin if none), and no other token's offset changes |
| SoccerField.DragsAccumulate | src/components/SoccerField.jsx:87-97 | two accepted drops add their deltas, and a rejected drop in between changes nothing |
| App.Initial | src/App.jsx:41-50 | the starting roster holds the names in order; there are no pairs or lineups, the next player number is one past the roster and the next pair number is 1 |
| App.InitialConsistent | src/App.jsx:41-50 | the starting state satisfies the invariant; its ids `player-1` ... are distinct |
| App.AddPlayer | src/App.jsx:53-56 | appends one player with the given name whose id reads back as the next number, and advances the counter; nothing else changes |
| App.AddPlayerConsistent | src/App.jsx:53-56 | the added id is new and the invariant is kept |
| App.RemovePlayer | src/App.jsx:59-65 | drops exactly the players with that id and the pairs involving it. Everything else keeps its multiplicity and its order, and the counters and lineups are unchanged |
| App.RemovePlayerConsistent | src/App.jsx:59-65 | the invariant is kept, and no remaining pair refers to the removed player |
| App.CreatePair | src/App.jsx:68-76 | appends one pair of the two players whose id reads back as the next pair number, and advances that counter |
| App.CreatePairConsistent | src/App.jsx:68-76 | pairing two different available players keeps the invariant. The handler checks neither condition; the corrected screen always meets both (`Screen.CreateKeepsScreenOk`), the screen as written does not (see Findings) |
| App.Unpair | src/App.jsx:79-81 | drops exactly the pairs with that id, keeps the others in order, and keeps the roster |
| App.UnpairConsistent | src/App.jsx:79-81 | the invariant is kept |
| App.PairedIdsSpec | src/App.jsx:85-89 | the collected id set holds exactly the ids some pair involves |
| App.PairedIds | src/App.jsx:85-89 | the id set grows by at most two ids per pair |
| App.AvailablePlayers | src/App.jsx:84-91 | a player is available if and only if it is on the roster and no pair involves its id; available players keep their roster order and multiplicity |
| App.HandleGenerateLineups | src/App.jsx:94-107 | with no pair nothing changes and no draw is taken. Otherwise only the lineups change: they are exactly what the generator keeps when asked for 5, over the attempts it reports (`TeamGenerator.Kept`), with 5 kept or 50 attempts made and fewer than 5 kept before the last one. Between one and five lineups with distinct signatures that split the pairs; the reported cursor is past the attempts' draws. The invariant is kept |
| App.DisjointPairsNoDupMembers | src/App.jsx:68-76 | disjoint pairs, none listed twice, have duplicate-free members |
| App.ConsistentPairsSplit | src/App.jsx:94-101 | in a consistent state, every generated lineup puts each pair's members on opposite teams, each on exactly one |
| App.SubmitThenAddKeepsNamesDistinct | src/components/PlayerInput.jsx:11-12 | submitting the form and then adding the accepted name keeps roster names distinct ignoring case |
| App.PlayerIdsUniqueIff | src/App.jsx:54 | element-wise id uniqueness is the same as position-wise distinct ids |
| App.IdNumberOfInitial | src/App.jsx:42-45 | the `k`-th starting player's id reads back as `k + 1` |
| Screen.RemoveAsWritten | src/App.jsx:59-65 | as written, removal changes the roster and pairs as `App.RemovePlayer` does and leaves the panel's slots as they were |
| Screen.Remove | src/App.jsx:59-65 | corrected: afterwards every filled slot holds an available player, a slot is emptied only when its occupant is no longer available, and the roster changes as in `App.RemovePlayer` |
| Screen.PressClear | src/components/DndArea.jsx:176-182 | the Clear button does nothing while both slots are empty, as it is disabled then; otherwise it empties both slots and the selection. The roster state is untouched |
| Screen.Step | src/components/DndArea.jsx:85-182 | in the corrected screen, panel actions leave the roster state alone, roster actions other than removal leave the panel alone, and only adding a player brings anyone onto the roster |
| Screen.StepAsWritten | src/App.jsx:59-65 | the screen as written differs from the corrected one only on removal: the roster changes in the same way, and the panel stays as it was |
| Screen.StartOk | src/components/DndArea.jsx:81-83 | on mount the panel is empty and the roster state is consistent |
| Screen.MountWithPlaceholders | src/App.jsx:9-50 | the screen mounts with the 28 placeholder players, `Serdar T` first, and is fine; the next player added is number 29 |
| Screen.AddKeepsScreenOk | src/App.jsx:53-56 | adding a player keeps the invariant, and slot occupants stay available |
| Screen.UnpairKeepsScreenOk | src/App.jsx:79-81 | dropping a pair keeps the invariant, and slot occupants stay available |
| Screen.CreateKeepsScreenOk | src/components/DndArea.jsx:110-117 | on a fine screen the create button hands the app two different available players, so the invariant is kept |
| Screen.StepKeepsScreenOk | src/components/DndArea.jsx:85-130 | every corrected action keeps the app consistent and the slots filled only with distinct available players |
| Screen.RunKeepsScreenOk | src/components/DndArea.jsx:85-130 | any sequence of corrected actions does the same |
| Screen.StartRunConsistent | src/App.jsx:41-91 | from the screen on mount, whatever the user does, the corrected screen's roster state stays consistent |
| Screen.StaleSlotPairBreaksConsistency | src/components/DndArea.jsx:110-117 | as written, with two different players in the slots, removing the slot 1 player from the roster and pressing create adds a pair whose first player is off the roster, so the invariant fails |
| Screen.TwoClicksFillSlots | src/components/DndArea.jsx:92-104 | on mount, clicking the first two players puts them in slot 1 and slot 2 of a fine screen, so that position is reachable |

## Left out

- `Math.random` is an arbitrary stream of draws in `[0, 1)`. Nothing is claimed about the distribution of shuffles or coins.
- TeamGenerator.GenerateTeamVariations: the bound of at most two lineups for a single pair is not a postcondition. `TeamGenerator.AtMostTwoForOnePair` derives it from the postconditions.
- TeamGenerator.GenerateTeamVariations: for a single pair, the model does not promise that both lineups come back. The source returns both only when the 50 coins of its attempts do not all fall on the same side; when every draw is below 0.5 it returns one lineup. `Math.random` is an arbitrary stream here, so this is not a property of every input.
- TeamGenerator.GenerateTeamVariations: it deduplicates on the corrected signature, `TeamGenerator.LineupSignature`, not on the joined string (see Findings).
- TeamGenerator.GenerateTeamVariations: `count` is a natural number. The default argument and fractional or negative counts are not modelled.
- StringOrder.Sort: compares whole characters. JavaScript compares UTF-16 code units, which order characters outside the Basic Multilingual Plane differently.
- JsText.ToLower: lower-cases only `A`-`Z`. Other Unicode case mappings are not modelled.
- JsText.Trim: strips the ECMAScript whitespace and line-terminator characters, one code point at a time.
- App.AddPlayer: the counters are unbounded. In JavaScript, once `nextId` reaches 2^53, `nextId + 1` rounds back to `nextId`, so ids would repeat; the `${n}` form itself stays plain digits up to 10^21.
- SoccerField.Slice: models non-negative bounds only, which is all `getFormation` uses.
- SoccerField.DragEnd: offsets are integers. In the browser they are floating-point pixels.
- SoccerField.DragEnd: every droppable is one of the two halves, so "over something with data" is `Some(team)`.
- SoccerField.Next: requires at least one lineup, because the arrows are rendered only when there is one.
- SoccerField.Previous: requires at least one lineup, for the same reason.
- `handleDragStart` and `handleDragCancel` only set `activePlayer`, which nothing reads (`DragOverlay` is imported but never rendered), so they are not modelled.
- `Field` has no `key`, so the stored token offsets carry over when the carousel moves to another lineup. The model keeps one offset map and does not say which lineup it belongs to.
- Screen.Step: generating lineups is not one of its actions. It changes only the lineups (`App.HandleGenerateLineups`), which neither the invariant nor the panel reads.
- Screen.Remove: the highlighted selection is kept even when its player is removed. It only decides which pool button is highlighted.
- Rendering is not modelled, nor are `alert`, the delayed scroll, `preventDefault` or the input's `onChange`.

## Findings

| source | as written | input that shows it | evidently intended | confidence | as-written member | corrected member |
|---|---|---|---|---|---|---|
| src/utils/teamGenerator.js:50-52 | the signature joins the sorted names of each team with `,` and the teams with `\|`, so a comma inside a name is indistinguishable from a separator | pairs ("a,b" vs "a") and ("c" vs "b,c"): team A = {"a,b", "c"} and team A = {"a", "b,c"} both give `a,b,c\|a,b,c`, so the second lineup is dropped as a repeat | lineups whose teams hold different names have different signatures | medium, not executed | TeamGenerator.SignatureString, TeamGenerator.SignatureStringCollision, TeamGenerator.SignatureStringAgrees | TeamGenerator.LineupSignature, TeamGenerator.SignatureEqualIff |
| src/components/SoccerField.jsx:324-388 | `currentIndex` survives a new `variations` prop, so a shorter list leaves it past the end; `variations[currentIndex]` is `undefined` and `Field` fails on `const { teamA, teamB } = lineup` | five lineups, click back to option 5 (index 4), unpair down to one pair and regenerate (at most two lineups) | the shown lineup always exists, e.g. the carousel restarts at the first lineup | high, not executed | SoccerField.ReceiveAsWritten, SoccerField.StaleIndexAfterRegenerate | SoccerField.Receive, SoccerField.Run |
| src/components/DndArea.jsx:110-117 | `handleRemovePlayer` (src/App.jsx:59-65) clears a removed player from the roster and the pairs but not from the panel's slots (src/components/DndArea.jsx:81-82), and the create button checks only that the two slot ids differ | put players X and Y in the two slots, remove X with the roster's remove button, press Create Pair: the pair (X, Y) is added although X is no longer on the roster | a removed player leaves the slots too, so every pair joins two players on the roster | high, not executed | Screen.RemoveAsWritten, Screen.StaleSlotPairBreaksConsistency | Screen.Remove, Screen.RunKeepsScreenOk |

=== FILE: app.dfy ===
/** The roster screen's state and its handlers: players with generated ids,
    forced-opposite pairs built from unpaired players, and the lineups
    generated from the pairs. Each handler is a pure transition from one
    state to the next. Every handler keeps the invariant `Consistent`,
    the pair handler provided it is handed two different available
    players; whether the pairing panel always hands it such players is a
    question about the whole screen, taken up in the `Screen` module. */
module App {
  import opened Types
  import opened Seqs
  import opened Decimal
  import opened Random
  import TeamGenerator
  import PlayerInput

  const PlayerPrefix: string := "player-"
  const PairPrefix: string := "pair-"

  /** `player-${n}` */
  function PlayerId(n: nat): string {
    PlayerPrefix + Format(n)
  }

  /** `pair-${n}` */
  function PairId(n: nat): string {
    PairPrefix + Format(n)
  }

  /** The five pieces of state the screen keeps. */
  datatype AppState = AppState(
    players: seq<Player>,
    pairs: seq<Pair>,
    variations: seq<Lineup>,
    nextId: nat,
    nextPairId: nat)

  /** The roster the screen starts with. */
  const InitialNames: seq<string> := [
    "Serdar T", "Serdar A", "Dowlet S", "Yhlas R", "Meylis aga", "Hasan", "Kuwwat",
    "Shahriyar aga", "Dowran", "Mekan aga", "Dowlet aga", "Nowruz", "Yagmyr aga",
    "Begench H", "Merdan", "Maksat aga", "Agamyrat aga", "Nury aga", "Yakup",
    "Muhammetnazar", "Hally", "Suleyman", "Yhlas", "Dayanch", "Ahmet S",
    "Akmuhammet A", "Abray", "Mekan DZ"]

  /** The state on mount: the names numbered from `player-1`, no pairs, no
      lineups. */
  function Initial(names: seq<string>): (s: AppState)
    ensures |s.players| == |names| && s.pairs == [] && s.variations == []
    ensures forall k :: 0 <= k < |names| ==> s.players[k].name == names[k]
    ensures s.nextId == |names| + 1 && s.nextPairId == 1
  {
    AppState(seq(|names|, k requires 0 <= k < |names| => Player(PlayerId(k + 1), names[k])), [], [], |names| + 1, 1)
  }

  // ---------------------------------------------------------------------
  // The invariant
  // ---------------------------------------------------------------------

  /** `id` reads as `prefix` followed by a number below `bound`. */
  predicate IdBelow(prefix: string, id: string, bound: nat) {
    IdNumber(prefix, id).Some? && IdNumber(prefix, id).value < bound
  }

  /** No player is listed twice and no two players share an id. */
  predicate PlayerIdsUnique(ps: seq<Player>) {
    NoDup(ps) && forall a, b :: a in ps && b in ps && a.id == b.id ==> a == b
  }

  /** The same for pairs. */
  predicate PairIdsUnique(qs: seq<Pair>) {
    NoDup(qs) && forall a, b :: a in qs && b in qs && a.id == b.id ==> a == b
  }

  /** Pair `q` has a member with id `id`. */
  predicate Involves(q: Pair, id: string) {
    q.player1.id == id || q.player2.id == id
  }

  /** Each pair joins two different players, and no player is in two
      pairs. */
  predicate PairsDisjoint(qs: seq<Pair>) {
    && (forall q :: q in qs ==> q.player1.id != q.player2.id)
    && (forall q, r :: q in qs && r in qs && q != r ==> !Involves(r, q.player1.id) && !Involves(r, q.player2.id))
  }

  /** What the handlers keep: ids are unique and below the next ones to be
      handed out, pairs are disjoint, and every paired player is on the
      roster. */
  predicate Consistent(s: AppState) {
    && (forall p :: p in s.players ==> IdBelow(PlayerPrefix, p.id, s.nextId))
    && PlayerIdsUnique(s.players)
    && (forall q :: q in s.pairs ==> IdBelow(PairPrefix, q.id, s.nextPairId))
    && PairIdsUnique(s.pairs)
    && (forall q :: q in s.pairs ==> q.player1 in s.players && q.player2 in s.players)
    && PairsDisjoint(s.pairs)
  }

  /** Unique ids in the element-wise form used here are exactly the
      position-wise `DistinctIds`. */
  lemma PlayerIdsUniqueIff(ps: seq<Player>)
    ensures PlayerIdsUnique(ps) <==> DistinctIds(ps)
  {
    if DistinctIds(ps) {
      forall a, b | a in ps && b in ps && a.id == b.id ensures a == b {
        var i :| 0 <= i < |ps| && ps[i] == a;
        var j :| 0 <= j < |ps| && ps[j] == b;
      }
    }
  }

  /** The `k`-th player on mount has id number `k + 1`. */
  lemma IdNumberOfInitial(names: seq<string>, k: nat)
    requires k < |names|
    ensures IdNumber(PlayerPrefix, Initial(names).players[k].id) == Some(k + 1)
  {
    IdNumberFormat(PlayerPrefix, k + 1);
  }

  /** The state on mount is consistent. */
  lemma InitialConsistent(names: seq<string>)
    ensures Consistent(Initial(names))
  {
    var s := Initial(names);
    forall k | 0 <= k < |names| ensures IdNumber(PlayerPrefix, s.players[k].id) == Some(k + 1) {
      IdNumberOfInitial(names, k);
    }
    forall i, j | 0 <= i < |names| && 0 <= j < |names| && s.players[i].id == s.players[j].id
      ensures i == j
    {
      assert IdNumber(PlayerPrefix, s.players[i].id) == Some(i + 1);
      assert IdNumber(PlayerPrefix, s.players[j].id) == Some(j + 1);
    }
    assert DistinctIds(s.players);
    PlayerIdsUniqueIff(s.players);
  }

  // ---------------------------------------------------------------------
  // Handlers
  // ---------------------------------------------------------------------

  /** `handleAddPlayer(name)`: appends the player under the next id. */
  function AddPlayer(s: AppState, name: string): (r: AppState)
    ensures |r.players| == |s.players| + 1 && r.players[..|s.players|] == s.players
    ensures r.players[|s.players|].name == name
    ensures IdNumber(PlayerPrefix, r.players[|s.players|].id) == Some(s.nextId)
    ensures r.nextId == s.nextId + 1
    ensures r.pairs == s.pairs && r.variations == s.variations && r.nextPairId == s.nextPairId
  {
    IdNumberFormat(PlayerPrefix, s.nextId);
    s.(players := s.players + [Player(PlayerId(s.nextId), name)], nextId := s.nextId + 1)
  }

  /** The added player's id is new, and the state stays consistent. */
  lemma AddPlayerConsistent(s: AppState, name: string)
    requires Consistent(s)
    ensures forall p :: p in s.players ==> p.id != AddPlayer(s, name).players[|s.players|].id
    ensures Consistent(AddPlayer(s, name))
  {
    var r := AddPlayer(s, name);
    var np := r.players[|s.players|];
    assert r.players == s.players + [np];
    forall p | p in s.players ensures p.id != np.id {
      assert IdBelow(PlayerPrefix, p.id, s.nextId);
    }
    assert forall p :: p in r.players ==> IdBelow(PlayerPrefix, p.id, r.nextId) by {
      forall p | p in r.players ensures IdBelow(PlayerPrefix, p.id, r.nextId) {
        if p != np {
          assert p in s.players;
        }
      }
    }
    PlayerIdsUniqueAppend(s.players, np);
  }

  lemma PlayerIdsUniqueAppend(ps: seq<Player>, np: Player)
    requires PlayerIdsUnique(ps)
    requires forall p :: p in ps ==> p.id != np.id
    ensures PlayerIdsUnique(ps + [np])
  {
    NoDupAppendOne(ps, np);
  }

  lemma PlayerIdsUniqueSubset(ps: seq<Player>, qs: seq<Player>)
    requires PlayerIdsUnique(ps) && NoDup(qs)
    requires forall p :: p in qs ==> p in ps
    ensures PlayerIdsUnique(qs)
  {
  }

  lemma PairIdsUniqueAppend(qs: seq<Pair>, nq: Pair)
    requires PairIdsUnique(qs)
    requires forall q :: q in qs ==> q.id != nq.id
    ensures PairIdsUnique(qs + [nq])
  {
    NoDupAppendOne(qs, nq);
  }

  lemma PairIdsUniqueSubset(qs: seq<Pair>, rs: seq<Pair>)
    requires PairIdsUnique(qs) && NoDup(rs)
    requires forall q :: q in rs ==> q in qs
    ensures PairIdsUnique(rs)
  {
  }

  lemma PairsDisjointSubset(qs: seq<Pair>, rs: seq<Pair>)
    requires PairsDisjoint(qs)
    requires forall q :: q in rs ==> q in qs
    ensures PairsDisjoint(rs)
  {
  }

  /** A pair of two different players, neither of whom is in a pair yet,
      can join disjoint pairs. */
  lemma PairsDisjointAppend(qs: seq<Pair>, nq: Pair)
    requires PairsDisjoint(qs)
    requires nq.player1.id != nq.player2.id
    requires forall q :: q in qs ==> !Involves(q, nq.player1.id) && !Involves(q, nq.player2.id)
    ensures PairsDisjoint(qs + [nq])
  {
    var rs := qs + [nq];
    forall q, q' | q in rs && q' in rs && q != q'
      ensures !Involves(q', q.player1.id) && !Involves(q', q.player2.id)
    {
      if q == nq {
        assert q' in qs;
      } else if q' == nq {
        assert q in qs;
      } else {
        assert q in qs && q' in qs;
      }
    }
  }

  /** `handleRemovePlayer(playerId)`: drops the player and every pair the
      player is in; everything else keeps its order and multiplicity. */
  function RemovePlayer(s: AppState, id: string): (r: AppState)
    ensures forall p :: p in r.players <==> p in s.players && p.id != id
    ensures forall p: Player :: p.id != id ==> multiset(r.players)[p] == multiset(s.players)[p]
    ensures forall q :: q in r.pairs <==> q in s.pairs && !Involves(q, id)
    ensures forall q :: !Involves(q, id) ==> multiset(r.pairs)[q] == multiset(s.pairs)[q]
    ensures Subseq(r.players, s.players) && Subseq(r.pairs, s.pairs)
    ensures NoDup(s.players) ==> NoDup(r.players)
    ensures NoDup(s.pairs) ==> NoDup(r.pairs)
    ensures r.variations == s.variations && r.nextId == s.nextId && r.nextPairId == s.nextPairId
  {
    FilterNoDup(s.players, (p: Player) => p.id != id);
    FilterNoDup(s.pairs, (q: Pair) => !Involves(q, id));
    s.(players := Filter(s.players, (p: Player) => p.id != id),
       pairs := Filter(s.pairs, (q: Pair) => !Involves(q, id)))
  }

  /** Removing a player keeps the state consistent: in particular no pair
      is left holding a player who is no longer on the roster. */
  lemma RemovePlayerConsistent(s: AppState, id: string)
    requires Consistent(s)
    ensures Consistent(RemovePlayer(s, id))
    ensures forall q :: q in RemovePlayer(s, id).pairs ==> !Involves(q, id)
  {
    var r := RemovePlayer(s, id);
    PlayerIdsUniqueSubset(s.players, r.players);
    PairIdsUniqueSubset(s.pairs, r.pairs);
    PairsDisjointSubset(s.pairs, r.pairs);
    assert forall q :: q in r.pairs ==> q.player1 in r.players && q.player2 in r.players;
  }

  /** `handleCreatePair(player1, player2)`: appends a pair under the next
      pair id. */
  function CreatePair(s: AppState, p1: Player, p2: Player): (r: AppState)
    ensures |r.pairs| == |s.pairs| + 1 && r.pairs[..|s.pairs|] == s.pairs
    ensures r.pairs[|s.pairs|].player1 == p1 && r.pairs[|s.pairs|].player2 == p2
    ensures IdNumber(PairPrefix, r.pairs[|s.pairs|].id) == Some(s.nextPairId)
    ensures r.nextPairId == s.nextPairId + 1
    ensures r.players == s.players && r.variations == s.variations && r.nextId == s.nextId
  {
    IdNumberFormat(PairPrefix, s.nextPairId);
    s.(pairs := s.pairs + [Pair(PairId(s.nextPairId), p1, p2)], nextPairId := s.nextPairId + 1)
  }

  /** `handleUnpair(pairId)`: drops the pairs with that id. */
  function Unpair(s: AppState, pid: string): (r: AppState)
    ensures forall q :: q in r.pairs <==> q in s.pairs && q.id != pid
    ensures forall q: Pair :: q.id != pid ==> multiset(r.pairs)[q] == multiset(s.pairs)[q]
    ensures Subseq(r.pairs, s.pairs)
    ensures NoDup(s.pairs) ==> NoDup(r.pairs)
    ensures r.players == s.players && r.variations == s.variations
    ensures r.nextId == s.nextId && r.nextPairId == s.nextPairId
  {
    FilterNoDup(s.pairs, (q: Pair) => q.id != pid);
    s.(pairs := Filter(s.pairs, (q: Pair) => q.id != pid))
  }

  lemma UnpairConsistent(s: AppState, pid: string)
    requires Consistent(s)
    ensures Consistent(Unpair(s, pid))
  {
    var r := Unpair(s, pid);
    PairIdsUniqueSubset(s.pairs, r.pairs);
    PairsDisjointSubset(s.pairs, r.pairs);
  }

  /** `pairedPlayerIds`: both ids of every pair, added pair by pair, so
      at most two per pair; `PairedIdsSpec` says exactly which. */
  function PairedIds(qs: seq<Pair>): (r: set<string>)
    ensures |r| <= 2 * |qs|
    decreases |qs|
  {
    if |qs| == 0 then {}
    else PairedIds(qs[..|qs| - 1]) + {qs[|qs| - 1].player1.id, qs[|qs| - 1].player2.id}
  }

  /** The collected set holds exactly the ids some pair involves. */
  lemma {:induction false} PairedIdsSpec(qs: seq<Pair>)
    ensures forall id :: id in PairedIds(qs) <==> exists q :: q in qs && Involves(q, id)
    decreases |qs|
  {
    if |qs| == 0 {
      return;
    }
    var init, last := qs[..|qs| - 1], qs[|qs| - 1];
    PairedIdsSpec(init);
    forall id ensures id in PairedIds(qs) <==> exists q :: q in qs && Involves(q, id) {
      if id in PairedIds(init) {
        var q :| q in init && Involves(q, id);
        assert q in qs;
      } else if id in PairedIds(qs) {
        assert Involves(last, id) && last in qs;
      }
    }
  }

  /** `getAvailablePlayers()`: the roster minus every paired player, in
      roster order. */
  function AvailablePlayers(s: AppState): (r: seq<Player>)
    ensures forall p :: p in r <==> p in s.players && forall q :: q in s.pairs ==> !Involves(q, p.id)
    ensures forall p :: p in r ==> multiset(r)[p] == multiset(s.players)[p]
    ensures Subseq(r, s.players)
  {
    var paired := PairedIds(s.pairs);
    PairedIdsSpec(s.pairs);
    Filter(s.players, (p: Player) => p.id !in paired)
  }

  /** Pairing two different available players keeps the state consistent.
      The handler itself checks nothing: a pair with a player who is not on
      the roster, or who is already paired, breaks the invariant. */
  lemma CreatePairConsistent(s: AppState, p1: Player, p2: Player)
    requires Consistent(s)
    requires p1 in AvailablePlayers(s) && p2 in AvailablePlayers(s) && p1.id != p2.id
    ensures Consistent(CreatePair(s, p1, p2))
  {
    var r := CreatePair(s, p1, p2);
    var nq := r.pairs[|s.pairs|];
    assert r.pairs == s.pairs + [nq];
    forall q | q in s.pairs ensures q.id != nq.id {
      assert IdBelow(PairPrefix, q.id, s.nextPairId);
    }
    assert forall q :: q in r.pairs ==> IdBelow(PairPrefix, q.id, r.nextPairId) by {
      forall q | q in r.pairs ensures IdBelow(PairPrefix, q.id, r.nextPairId) {
        if q != nq {
          assert q in s.pairs;
        }
      }
    }
    PairIdsUniqueAppend(s.pairs, nq);
    PairsDisjointAppend(s.pairs, nq);
  }

  /** How many lineups the screen asks the generator for. */
  const VariationsWanted: nat := 5

  /** `handleGenerateLineups()`: with no pair, nothing changes (the source
      raises an alert); otherwise the lineups are replaced by the first
      five distinct ones the generator draws, out of at most fifty
      attempts. `attempts` and `next` report how many attempts were made
      and where the draws stopped. */
  method HandleGenerateLineups(s: AppState, rng: Stream, cursor: nat) returns (r: AppState, attempts: nat, next: nat)
    ensures !TeamGenerator.CanGenerateTeams(s.pairs) ==> r == s && attempts == 0 && next == cursor
    ensures r.players == s.players && r.pairs == s.pairs
    ensures r.nextId == s.nextId && r.nextPairId == s.nextPairId
    ensures TeamGenerator.CanGenerateTeams(s.pairs) ==>
      && r.variations == TeamGenerator.Kept(s.pairs, rng, cursor, attempts)
      && (|r.variations| == VariationsWanted || attempts == VariationsWanted * 10)
      && (attempts > 0 ==> |TeamGenerator.Kept(s.pairs, rng, cursor, attempts - 1)| < VariationsWanted)
      && attempts <= VariationsWanted * 10
      && next == cursor + TeamGenerator.AttemptDraws(attempts, |s.pairs|)
    ensures TeamGenerator.CanGenerateTeams(s.pairs) ==>
      1 <= |r.variations| <= VariationsWanted && TeamGenerator.DistinctSignatures(r.variations)
    ensures TeamGenerator.CanGenerateTeams(s.pairs) ==>
      forall v :: v in r.variations ==> TeamGenerator.SplitsPairs(v, s.pairs)
    ensures Consistent(s) ==> Consistent(r)
  {
    if !TeamGenerator.CanGenerateTeams(s.pairs) {
      return s, 0, cursor;
    }
    var variations;
    variations, attempts, next := TeamGenerator.GenerateTeamVariations(s.pairs, VariationsWanted, rng, cursor);
    assert attempts > 0 ==> |TeamGenerator.Kept(s.pairs, rng, cursor, attempts - 1)| < VariationsWanted;
    r := s.(variations := variations);
  }

  // ---------------------------------------------------------------------
  // What the invariant buys
  // ---------------------------------------------------------------------

  /** Disjoint pairs, none listed twice, have duplicate-free members. */
  lemma {:induction false} DisjointPairsNoDupMembers(qs: seq<Pair>)
    requires NoDup(qs) && PairsDisjoint(qs)
    ensures NoDup(Members(qs))
    decreases |qs|
  {
    if |qs| == 0 {
      return;
    }
    var init, last := qs[..|qs| - 1], qs[|qs| - 1];
    assert forall q :: q in init ==> q in qs;
    assert NoDup(init) by {
      forall i, j | 0 <= i < |init| && 0 <= j < |init| && i != j ensures init[i] != init[j] {
        assert init[i] == qs[i] && init[j] == qs[j];
      }
    }
    DisjointPairsNoDupMembers(init);
    var m := Members(init);
    assert Members(qs) == m + [last.player1, last.player2];
    assert last.player1 !in m && last.player2 !in m by {
      LastPairNewMembers(qs);
    }
    NoDupAppendTwo(m, last.player1, last.player2);
  }

  /** The last of disjoint pairs, none listed twice, shares no member with
      the pairs before it. */
  lemma LastPairNewMembers(qs: seq<Pair>)
    requires |qs| > 0 && NoDup(qs) && PairsDisjoint(qs)
    ensures var last := qs[|qs| - 1];
      last.player1 !in Members(qs[..|qs| - 1]) && last.player2 !in Members(qs[..|qs| - 1])
  {
    var init, last := qs[..|qs| - 1], qs[|qs| - 1];
    forall x | x in Members(init) ensures x != last.player1 && x != last.player2 {
      MemberOfSomePair(init, x);
      var q :| q in init && (x == q.player1 || x == q.player2);
      var i :| 0 <= i < |init| && init[i] == q;
      assert qs[i] == q && qs[|qs| - 1] == last;
      assert q != last;
      assert q in qs && last in qs;
      assert !Involves(last, q.player1.id) && !Involves(last, q.player2.id);
      assert x.id == q.player1.id || x.id == q.player2.id;
    }
  }

  /** In a consistent state, every lineup the generator may return puts
      each pair's two members on opposite teams, each on exactly one. */
  lemma ConsistentPairsSplit(s: AppState, l: Lineup, q: Pair)
    requires Consistent(s)
    requires TeamGenerator.SplitsPairs(l, s.pairs) && q in s.pairs
    ensures q.player1 != q.player2
    ensures (q.player1 in l.teamA <==> q.player1 !in l.teamB)
    ensures (q.player2 in l.teamA <==> q.player2 !in l.teamB)
    ensures (q.player1 in l.teamA <==> q.player2 in l.teamB)
  {
    DisjointPairsNoDupMembers(s.pairs);
    TeamGenerator.PairOnExactlyOneSide(l, s.pairs, q);
  }

  /** Submitting the form and adding the accepted name keeps the roster's
      names distinct ignoring case. */
  lemma SubmitThenAddKeepsNamesDistinct(s: AppState, input: string)
    requires PlayerInput.NamesDistinct(s.players)
    requires PlayerInput.HandleSubmit(input, s.players).added.Some?
    ensures PlayerInput.NamesDistinct(AddPlayer(s, PlayerInput.HandleSubmit(input, s.players).added.value).players)
  {
    var name := PlayerInput.HandleSubmit(input, s.players).added.value;
    PlayerInput.SubmitKeepsNamesDistinct(input, s.players, PlayerId(s.nextId));
    assert AddPlayer(s, name).players == s.players + [Player(PlayerId(s.nextId), name)];
  }
}

=== FILE: decimal.dfy ===
/** Decimal rendering of a non-negative integer, as a template literal
    `${n}` produces it, and the parser that reads it back. Ids such as
    `player-12` are built with the former; the latter lets the model say
    what "has the form player-k" means. */
module Decimal {
  import opened Types

  predicate IsDigit(c: char) {
    '0' <= c <= '9'
  }

  function DigitChar(d: nat): (c: char)
    requires d < 10
    ensures IsDigit(c) && c as int - '0' as int == d
  {
    ('0' as int + d) as char
  }

  /** `${n}`: the digits of `n`, most significant first, no leading zero. */
  function Format(n: nat): (s: string)
    ensures |s| > 0
    ensures forall k :: 0 <= k < |s| ==> IsDigit(s[k])
    ensures |s| > 1 ==> s[0] != '0'
    decreases n
  {
    if n < 10 then [DigitChar(n)] else Format(n / 10) + [DigitChar(n % 10)]
  }

  /** The value of a string of digits. */
  function DigitsValue(s: string): nat
    requires forall k :: 0 <= k < |s| ==> IsDigit(s[k])
    decreases |s|
  {
    if |s| == 0 then 0
    else
      assert IsDigit(s[|s| - 1]);
      DigitsValue(s[..|s| - 1]) * 10 + (s[|s| - 1] as int - '0' as int)
  }

  /** Reads a non-empty run of digits; anything else is rejected. */
  function Parse(s: string): (r: Option<nat>)
    ensures r.Some? <==> |s| > 0 && forall k :: 0 <= k < |s| ==> IsDigit(s[k])
  {
    if |s| > 0 && forall k :: 0 <= k < |s| ==> IsDigit(s[k]) then Some(DigitsValue(s)) else None
  }

  /** Reading back what `Format` wrote gives the number again. */
  lemma {:induction false} ParseFormat(n: nat)
    ensures Parse(Format(n)) == Some(n)
    decreases n
  {
    if n >= 10 {
      ParseFormat(n / 10);
      var s := Format(n);
      assert s[..|s| - 1] == Format(n / 10);
      assert s[|s| - 1] as int - '0' as int == n % 10;
      assert DigitsValue(Format(n / 10)) == n / 10;
      assert DigitsValue(s) == (n / 10) * 10 + n % 10;
    } else {
      var s := Format(n);
      assert s[..0] == [];
      assert DigitsValue(s) == n;
    }
  }

  /** The number in an id `prefix + digits`, if the id has that form. */
  function IdNumber(prefix: string, id: string): (r: Option<nat>)
    ensures r.Some? ==> |prefix| < |id| && id[..|prefix|] == prefix
  {
    if |prefix| < |id| && id[..|prefix|] == prefix then Parse(id[|prefix|..]) else None
  }

  /** Reading the number of an id built from a prefix gives it back. */
  lemma IdNumberFormat(prefix: string, n: nat)
    ensures IdNumber(prefix, prefix + Format(n)) == Some(n)
  {
    var id := prefix + Format(n);
    assert id[..|prefix|] == prefix;
    assert id[|prefix|..] == Format(n);
    ParseFormat(n);
  }
}

=== FILE: dnd_area.dfy ===
/** The click-to-pair panel: two slots filled by clicking players in the
    available pool, a highlighted selection, and the buttons that turn the
    two slots into a pair or clear them. Each handler is a transition of
    the panel's state. */
module DndArea {
  import opened Types
  import opened Seqs

  /** `pairSlot1`, `pairSlot2` and `selectedPlayer`; `None` is `null`. */
  datatype Slots = Slots(slot1: Option<Player>, slot2: Option<Player>, selected: Option<Player>)

  /** The state on mount, and after creating a pair or clearing. */
  const Empty := Slots(None, None, None)

  /** `selectedPlayer?.id === player.id` */
  predicate IsSelected(s: Slots, p: Player) {
    s.selected.Some? && s.selected.value.id == p.id
  }

  /** `handlePlayerClick(player)`: clicking the selected player deselects
      it; otherwise the click fills slot 1 if it is empty, else slot 2 if that
      is empty and the player is not already in slot 1, else it only
      selects the player. */
  function PlayerClick(s: Slots, p: Player): (r: Slots)
    // a click fills at most one empty slot, with the clicked player
    ensures r.slot1 == s.slot1 || (s.slot1.None? && r.slot1 == Some(p))
    ensures r.slot2 == s.slot2 || (s.slot1.Some? && s.slot2.None? && r.slot2 == Some(p))
    ensures r.slot1 != s.slot1 ==> r.slot2 == s.slot2
    // filling a slot clears the selection; otherwise only the selection moves
    ensures (r.slot1 != s.slot1 || r.slot2 != s.slot2) ==> r.selected.None?
    ensures r.selected.None? || r.selected == Some(p)
    // the four cases of the handler
    ensures IsSelected(s, p) ==> r == s.(selected := None)
    ensures !IsSelected(s, p) && s.slot1.None? ==> r.slot1 == Some(p) && r.selected.None?
    ensures !IsSelected(s, p) && s.slot1.Some? && s.slot2.None? && p.id != s.slot1.value.id
      ==> r.slot2 == Some(p) && r.slot1 == s.slot1 && r.selected.None?
    ensures !IsSelected(s, p) && s.slot1.Some? && (s.slot2.Some? || p.id == s.slot1.value.id)
      ==> r.slot1 == s.slot1 && r.slot2 == s.slot2 && r.selected == Some(p)
  {
    if IsSelected(s, p) then s.(selected := None)
    else if s.slot1.None? then s.(slot1 := Some(p), selected := None)
    else if s.slot2.None? && p.id != s.slot1.value.id then s.(slot2 := Some(p), selected := None)
    else s.(selected := Some(p))
  }

  /** `canCreatePair`: both slots filled with players of different ids. */
  predicate CanCreatePair(s: Slots)
    ensures CanCreatePair(s) ==> s.slot1.Some? && s.slot2.Some? && s.slot1 != s.slot2
  {
    s.slot1.Some? && s.slot2.Some? && s.slot1.value.id != s.slot2.value.id
  }

  /** `handleCreatePair()`: emits the two slot occupants as a new pair and
      empties the panel, or does nothing when the pair is not allowed. */
  function CreatePair(s: Slots): (r: (Slots, Option<(Player, Player)>))
    ensures r.1.Some? <==> s.slot1.Some? && s.slot2.Some? && s.slot1.value.id != s.slot2.value.id
    ensures r.1.Some? ==> r.1.value == (s.slot1.value, s.slot2.value) && r.0 == Empty
    ensures r.1.Some? ==> r.1.value.0.id != r.1.value.1.id
    ensures r.1.None? ==> r.0 == s
  {
    if CanCreatePair(s) then (Empty, Some((s.slot1.value, s.slot2.value))) else (s, None)
  }

  /** `handleClearSlots()`. */
  function ClearSlots(s: Slots): (r: Slots)
    ensures r.slot1.None? && r.slot2.None? && r.selected.None?
  {
    Empty
  }

  /** The remove button on slot 1: `setPairSlot1(null)`. */
  function RemoveSlot1(s: Slots): (r: Slots)
    ensures r.slot1.None? && r.slot2 == s.slot2 && r.selected == s.selected
  {
    s.(slot1 := None)
  }

  /** The remove button on slot 2: `setPairSlot2(null)`. */
  function RemoveSlot2(s: Slots): (r: Slots)
    ensures r.slot2.None? && r.slot1 == s.slot1 && r.selected == s.selected
  {
    s.(slot2 := None)
  }

  /** `p` is not in the given slot. */
  predicate NotIn(slot: Option<Player>, p: Player) {
    slot.None? || p.id != slot.value.id
  }

  /** `displayPlayers`: the available players not sitting in either slot,
      in their original order. */
  function DisplayPlayers(available: seq<Player>, s: Slots): (r: seq<Player>)
    ensures forall p :: p in r <==> p in available && NotIn(s.slot1, p) && NotIn(s.slot2, p)
    ensures forall p :: NotIn(s.slot1, p) && NotIn(s.slot2, p) ==> multiset(r)[p] == multiset(available)[p]
    ensures Subseq(r, available)
  {
    Filter(available, p => NotIn(s.slot1, p) && NotIn(s.slot2, p))
  }

  /** The two slots never hold the same player. */
  predicate SlotsDistinct(s: Slots) {
    s.slot1.Some? && s.slot2.Some? ==> s.slot1.value.id != s.slot2.value.id
  }

  /** Clicking a player shown in the pool keeps the slots distinct: the
      slot-2 rule checks slot 1 itself, and the pool never shows the
      occupant of slot 2 when slot 1 is refilled. */
  lemma ClickFromDisplayKeepsSlotsDistinct(available: seq<Player>, s: Slots, p: Player)
    requires SlotsDistinct(s)
    requires p in DisplayPlayers(available, s)
    ensures SlotsDistinct(PlayerClick(s, p))
  {
  }

  /** Every transition of the panel keeps the slots distinct, provided
      clicks come from the displayed pool; with distinct slots the create
      button is enabled exactly when both slots are filled. */
  lemma SlotsDistinctEverywhere(s: Slots)
    requires SlotsDistinct(s)
    ensures SlotsDistinct(CreatePair(s).0)
    ensures SlotsDistinct(ClearSlots(s)) && SlotsDistinct(RemoveSlot1(s)) && SlotsDistinct(RemoveSlot2(s))
    ensures CanCreatePair(s) <==> s.slot1.Some? && s.slot2.Some?
  {
  }
}

=== FILE: js_text.dfy ===
/** The two string operations the player form relies on:
    `String.prototype.trim` and a case-folding `toLowerCase`. */
module JsText {

  /** ECMAScript WhiteSpace or LineTerminator: what `trim` strips. */
  predicate IsWhitespace(c: char) {
    var n := c as int;
    n == 0x09 || n == 0x0A || n == 0x0B || n == 0x0C || n == 0x0D || n == 0x20
    || n == 0xA0 || n == 0x1680 || (0x2000 <= n <= 0x200A) || n == 0x2028
    || n == 0x2029 || n == 0x202F || n == 0x205F || n == 0x3000 || n == 0xFEFF
  }

  /** How many whitespace characters `s` starts with. */
  function LeadingWhitespace(s: string): (n: nat)
    ensures n <= |s|
    ensures forall k :: 0 <= k < n ==> IsWhitespace(s[k])
    ensures n < |s| ==> !IsWhitespace(s[n])
    decreases |s|
  {
    if |s| > 0 && IsWhitespace(s[0]) then
      var n := 1 + LeadingWhitespace(s[1..]);
      assert forall k :: 1 <= k < n ==> s[k] == s[1..][k - 1];
      n
    else 0
  }

  /** How many whitespace characters `s` ends with. */
  function TrailingWhitespace(s: string): (n: nat)
    ensures n <= |s|
    ensures forall k :: |s| - n <= k < |s| ==> IsWhitespace(s[k])
    ensures n < |s| ==> !IsWhitespace(s[|s| - n - 1])
    decreases |s|
  {
    if |s| > 0 && IsWhitespace(s[|s| - 1]) then
      var n := 1 + TrailingWhitespace(s[..|s| - 1]);
      assert forall k :: |s| - n <= k < |s| - 1 ==> s[k] == s[..|s| - 1][k];
      n
    else 0
  }

  /** Drops leading whitespace: `s` is some whitespace followed by `r`, and
      `r` is empty or starts with a non-whitespace character. */
  function TrimStart(s: string): (r: string)
    ensures |r| <= |s| && r == s[|s| - |r|..]
    ensures forall k :: 0 <= k < |s| - |r| ==> IsWhitespace(s[k])
    ensures |r| > 0 ==> !IsWhitespace(r[0])
  {
    s[LeadingWhitespace(s)..]
  }

  /** Drops trailing whitespace: `s` is `r` followed by some whitespace, and
      `r` is empty or ends with a non-whitespace character. */
  function TrimEnd(s: string): (r: string)
    ensures |r| <= |s| && r == s[..|r|]
    ensures forall k :: |r| <= k < |s| ==> IsWhitespace(s[k])
    ensures |r| > 0 ==> !IsWhitespace(r[|r| - 1])
  {
    s[..|s| - TrailingWhitespace(s)]
  }

  /** `s.trim()`. */
  function Trim(s: string): (r: string)
    ensures |r| <= |s|
    ensures |r| > 0 ==> !IsWhitespace(r[0]) && !IsWhitespace(r[|r| - 1])
    ensures r == [] <==> forall k :: 0 <= k < |s| ==> IsWhitespace(s[k])
  {
    var t := TrimStart(s);
    var r := TrimEnd(t);
    assert |r| > 0 ==> r[0] == t[0];
    assert r == [] ==> t == [];
    r
  }

  /** `Trim(s)` is the piece of `s` that starts after its leading
      whitespace ... */
  lemma TrimIsInfix(s: string)
    ensures var i := |s| - |TrimStart(s)|;
      i + |Trim(s)| <= |s| && Trim(s) == s[i..i + |Trim(s)|]
  {
    var t := TrimStart(s);
    var r := TrimEnd(t);
    assert Trim(s) == r;
    PrefixOfSuffix(s, t, r);
  }

  lemma PrefixOfSuffix(s: string, t: string, r: string)
    requires |t| <= |s| && t == s[|s| - |t|..]
    requires |r| <= |t| && r == t[..|r|]
    ensures r == s[|s| - |t|..|s| - |t| + |r|]
  {
  }

  /** ... and only whitespace is cut after it. */
  lemma TrimCutsOnlyWhitespace(s: string)
    ensures var i := |s| - |TrimStart(s)|;
      && (forall k :: 0 <= k < i ==> IsWhitespace(s[k]))
      && (forall k :: i + |Trim(s)| <= k < |s| ==> IsWhitespace(s[k]))
  {
    var t := TrimStart(s);
    var r := TrimEnd(t);
    var i := |s| - |t|;
    forall k | i + |r| <= k < |s| ensures IsWhitespace(s[k]) {
      assert s[k] == t[k - i];
    }
  }

  /** Trimming twice is trimming once. */
  lemma TrimIdempotent(s: string)
    ensures Trim(Trim(s)) == Trim(s)
  {
    var r := Trim(s);
    if |r| > 0 {
      assert TrimStart(r) == r;
      assert TrimEnd(r) == r;
    }
  }

  /** Lower-cases the ASCII letters A-Z and leaves every other character. */
  function LowerChar(c: char): (d: char)
    ensures 'A' <= c <= 'Z' ==> d as int == c as int + 32
    ensures !('A' <= c <= 'Z') ==> d == c
  {
    if 'A' <= c <= 'Z' then (c as int + 32) as char else c
  }

  /** `s.toLowerCase()`, restricted to ASCII letters. */
  function ToLower(s: string): (r: string)
    ensures |r| == |s|
    ensures forall k :: 0 <= k < |s| ==> r[k] == LowerChar(s[k])
  {
    seq(|s|, k requires 0 <= k < |s| => LowerChar(s[k]))
  }

  /** Lower-casing is idempotent, so "equal ignoring case" compares
      canonical forms. */
  lemma ToLowerIdempotent(s: string)
    ensures ToLower(ToLower(s)) == ToLower(s)
  {
  }

  /** Case-insensitive equality, as the duplicate check compares names. */
  predicate SameIgnoringCase(a: string, b: string) {
    ToLower(a) == ToLower(b)
  }
}

=== FILE: player_input.dfy ===
/** The add-player form: a name is accepted when its trimmed form is
    non-empty and no player already has that name, ignoring case. */
module PlayerInput {
  import opened Types
  import opened JsText

  /** `players.find(p => p.name.toLowerCase() === name.toLowerCase())`:
      the first player whose name equals `name` ignoring case. */
  function FindByName(players: seq<Player>, name: string): (r: Option<Player>)
    ensures r.Some? ==> r.value in players && SameIgnoringCase(r.value.name, name)
    ensures r.None? <==> forall p :: p in players ==> !SameIgnoringCase(p.name, name)
    ensures r.Some? ==> exists k :: (0 <= k < |players| && players[k] == r.value
      && forall j :: 0 <= j < k ==> !SameIgnoringCase(players[j].name, name))
    decreases |players|
  {
    if |players| == 0 then None
    else if SameIgnoringCase(players[0].name, name) then Some(players[0])
    else
      var r := FindByName(players[1..], name);
      assert forall p :: p in players[1..] ==> p in players;
      assert forall p :: p in players ==> p == players[0] || p in players[1..];
      assert forall j :: 1 <= j < |players| ==> players[j] == players[1..][j - 1];
      r
  }

  /** What a submit leaves behind: the name handed to `onAddPlayer`, if
      any, and the new contents of the input box. */
  datatype Submitted = Submitted(added: Option<string>, input: string)

  /** `handleSubmit`: hands the trimmed name on and empties the box, or
      does nothing when the name is blank or already taken. */
  function HandleSubmit(input: string, players: seq<Player>): (r: Submitted)
    ensures r.added.Some? <==> Trim(input) != [] && forall p :: p in players ==> !SameIgnoringCase(p.name, Trim(input))
    ensures r.added.Some? ==> r.added.value == Trim(input) && r.input == []
    ensures r.added.None? ==> r.input == input
  {
    var name := Trim(input);
    if name != [] && FindByName(players, name).None? then Submitted(Some(name), [])
    else Submitted(None, input)
  }

  /** An accepted name is never blank, never starts or ends with
      whitespace, and is its own trimmed form; `JsText.TrimIsInfix` and
      `JsText.TrimCutsOnlyWhitespace` say where it sits in the typed text. */
  lemma AcceptedNameIsTrimmed(input: string, players: seq<Player>)
    requires HandleSubmit(input, players).added.Some?
    ensures var name := HandleSubmit(input, players).added.value;
      && |name| > 0 && !IsWhitespace(name[0]) && !IsWhitespace(name[|name| - 1])
      && Trim(name) == name
  {
    var name := HandleSubmit(input, players).added.value;
    assert name == Trim(input);
    assert Trim(name) == name by {
      TrimIdempotent(input);
    }
  }

  /** No two players have the same name ignoring case. */
  predicate NamesDistinct(players: seq<Player>) {
    forall i, j :: 0 <= i < j < |players| ==> !SameIgnoringCase(players[i].name, players[j].name)
  }

  /** Adding the name a submit accepts, under any id, keeps the roster's
      names distinct ignoring case. */
  lemma SubmitKeepsNamesDistinct(input: string, players: seq<Player>, id: string)
    requires NamesDistinct(players)
    requires HandleSubmit(input, players).added.Some?
    ensures NamesDistinct(players + [Player(id, HandleSubmit(input, players).added.value)])
  {
    var name := HandleSubmit(input, players).added.value;
    var ps := players + [Player(id, name)];
    forall i, j | 0 <= i < j < |ps| ensures !SameIgnoringCase(ps[i].name, ps[j].name) {
      if j == |players| {
        assert ps[i] in players;
      }
    }
  }

  /** A name that differs only in case from an existing one is refused. */
  lemma CaseVariantRefused(input: string, players: seq<Player>, p: Player)
    requires p in players && SameIgnoringCase(p.name, Trim(input))
    ensures HandleSubmit(input, players).added.None?
    ensures HandleSubmit(input, players).input == input
  {
  }
}

=== FILE: random.dfy ===
/** The generator's only source of nondeterminism is `Math.random()`. The
    model receives the values those calls would return as an explicit stream,
    so every property below holds for every possible random outcome. */
module Random {

  /** One value of `Math.random()`: a real in [0, 1). */
  type Draw = r: real | 0.0 <= r < 1.0

  /** The values successive `Math.random()` calls return, in call order. */
  type Stream = nat -> Draw

  /** `Math.floor(r * n)`: an index in [0, n). */
  function IndexBelow(r: Draw, n: nat): (j: nat)
    requires n > 0
    ensures j < n
  {
    var x := r * n as real;
    assert 0.0 <= x by {
      assert 0.0 <= r && 0.0 <= n as real;
    }
    assert x < n as real by {
      assert (1.0 - r) * n as real > 0.0;
    }
    x.Floor
  }

  /** `Math.random() < 0.5`: the coin that sends player1 to team A. */
  predicate Heads(r: Draw) {
    r < 0.5
  }
}

=== FILE: screen.dfy ===
/** The screen as a whole: the roster state kept by the app and the slots
    kept by the pairing panel, and the user actions that move both. The
    panel hands the app the pairs it builds from its two slots, and the
    app hands the panel the available players; nothing else connects them.
    In particular removing a player from the roster leaves the panel's
    slots alone, so a slot can go on holding a player who is no longer on
    the roster. `StepAsWritten` models that; `Step` empties such a slot,
    and keeps the app's invariant over every action. */
module Screen {
  import opened Types
  import App
  import DndArea

  datatype State = State(app: App.AppState, panel: DndArea.Slots)

  /** What a user can do on the screen. Generating lineups is not among
      them: it changes neither the roster, the pairs nor the panel. */
  datatype Action =
    | AddPlayer(name: string)
    | RemovePlayer(id: string)
    | ClickPlayer(p: Player)
    | CreatePairClicked
    | ClearClicked
    | RemoveSlot1Clicked
    | RemoveSlot2Clicked
    | Unpair(pid: string)

  /** The screen on mount. */
  function Start(names: seq<string>): State {
    State(App.Initial(names), DndArea.Empty)
  }

  /** The players the panel shows buttons for. */
  function Pool(sc: State): seq<Player> {
    DndArea.DisplayPlayers(App.AvailablePlayers(sc.app), sc.panel)
  }

  /** A click on a player: only players in the pool have a button, so a
      click on anyone else changes nothing. */
  function Click(sc: State, p: Player): State {
    if p in Pool(sc) then sc.(panel := DndArea.PlayerClick(sc.panel, p)) else sc
  }

  /** The create button: the panel emits the pair in its slots, which the
      app appends, and empties itself; or nothing happens. */
  function CreateClicked(sc: State): State {
    var (panel, emitted) := DndArea.CreatePair(sc.panel);
    if emitted.Some? then State(App.CreatePair(sc.app, emitted.value.0, emitted.value.1), panel)
    else State(sc.app, panel)
  }

  /** The clear button: it is disabled while both slots are empty, so
      then a press changes nothing, and the selection survives it. */
  function PressClear(sc: State): (r: State)
    ensures r.app == sc.app
    ensures sc.panel.slot1.None? && sc.panel.slot2.None? ==> r == sc
    ensures sc.panel.slot1.Some? || sc.panel.slot2.Some? ==> r.panel == DndArea.Empty
  {
    if sc.panel.slot1.None? && sc.panel.slot2.None? then sc
    else sc.(panel := DndArea.ClearSlots(sc.panel))
  }

  /** Removing a player as the screen does it: the roster and the pairs
      lose the player, and the panel keeps its slots. */
  function RemoveAsWritten(sc: State, id: string): (r: State)
    ensures r.app == App.RemovePlayer(sc.app, id)
    ensures r.panel == sc.panel
  {
    State(App.RemovePlayer(sc.app, id), sc.panel)
  }

  /** A slot whose occupant is no longer available is emptied. */
  function Prune(slot: Option<Player>, available: seq<Player>): Option<Player> {
    if slot.Some? && slot.value in available then slot else None
  }

  /** Every filled slot holds an available player. */
  predicate SlotsAvailable(sc: State) {
    && (sc.panel.slot1.Some? ==> sc.panel.slot1.value in App.AvailablePlayers(sc.app))
    && (sc.panel.slot2.Some? ==> sc.panel.slot2.value in App.AvailablePlayers(sc.app))
  }

  /** Removing a player, corrected: as on the screen, and then each slot
      whose occupant is no longer available is emptied. A slot is emptied
      only then, and afterwards every filled slot holds an available
      player. */
  function Remove(sc: State, id: string): (r: State)
    ensures r.app == App.RemovePlayer(sc.app, id)
    ensures SlotsAvailable(r)
    ensures r.panel.slot1.Some? ==> r.panel.slot1 == sc.panel.slot1
    ensures r.panel.slot2.Some? ==> r.panel.slot2 == sc.panel.slot2
    ensures sc.panel.slot1.Some? && sc.panel.slot1.value in App.AvailablePlayers(r.app) ==> r.panel.slot1 == sc.panel.slot1
    ensures sc.panel.slot2.Some? && sc.panel.slot2.value in App.AvailablePlayers(r.app) ==> r.panel.slot2 == sc.panel.slot2
    ensures r.panel.selected == sc.panel.selected
  {
    var app := App.RemovePlayer(sc.app, id);
    var available := App.AvailablePlayers(app);
    State(app, sc.panel.(slot1 := Prune(sc.panel.slot1, available), slot2 := Prune(sc.panel.slot2, available)))
  }

  /** One action, corrected. Panel actions leave the app alone, roster
      actions other than removal leave the panel alone, and only adding a
      player brings anyone onto the roster. */
  function Step(sc: State, a: Action): (r: State)
    ensures (a.ClickPlayer? || a.ClearClicked? || a.RemoveSlot1Clicked? || a.RemoveSlot2Clicked?) ==> r.app == sc.app
    ensures (a.AddPlayer? || a.Unpair?) ==> r.panel == sc.panel
    ensures !a.AddPlayer? ==> forall p :: p in r.app.players ==> p in sc.app.players
  {
    match a
    case AddPlayer(name) => sc.(app := App.AddPlayer(sc.app, name))
    case RemovePlayer(id) => Remove(sc, id)
    case ClickPlayer(p) => Click(sc, p)
    case CreatePairClicked => CreateClicked(sc)
    case ClearClicked => PressClear(sc)
    case RemoveSlot1Clicked => sc.(panel := DndArea.RemoveSlot1(sc.panel))
    case RemoveSlot2Clicked => sc.(panel := DndArea.RemoveSlot2(sc.panel))
    case Unpair(pid) => sc.(app := App.Unpair(sc.app, pid))
  }

  /** One action, as written: only removal differs, and there only in
      keeping the panel as it was. */
  function StepAsWritten(sc: State, a: Action): (r: State)
    ensures !a.RemovePlayer? ==> r == Step(sc, a)
    ensures a.RemovePlayer? ==> r.app == Step(sc, a).app && r.panel == sc.panel
  {
    if a.RemovePlayer? then RemoveAsWritten(sc, a.id) else Step(sc, a)
  }

  /** A sequence of actions, corrected. */
  function Run(sc: State, actions: seq<Action>): State
    decreases |actions|
  {
    if |actions| == 0 then sc else Run(Step(sc, actions[0]), actions[1..])
  }

  /** What the screen keeps: the app's state is consistent, the slots hold
      available players, and never the same one twice. */
  predicate ScreenOk(sc: State) {
    App.Consistent(sc.app) && SlotsAvailable(sc) && DndArea.SlotsDistinct(sc.panel)
  }

  /** The screen on mount is fine. */
  lemma StartOk(names: seq<string>)
    ensures ScreenOk(Start(names))
  {
    App.InitialConsistent(names);
  }

  /** The screen mounts with the 28 placeholder players, `player-1` to
      `player-28`, and is fine; the next player added gets `player-29`. */
  lemma MountWithPlaceholders()
    ensures var sc := Start(App.InitialNames);
      && |sc.app.players| == 28 && sc.app.players[0].name == "Serdar T"
      && sc.app.nextId == 29 && ScreenOk(sc)
  {
    StartOk(App.InitialNames);
  }

  /** Adding a player or dropping a pair leaves every available player
      available. */
  lemma AvailableGrows(s: App.AppState, r: App.AppState, p: Player)
    requires forall x :: x in s.players ==> x in r.players
    requires forall q :: q in r.pairs ==> q in s.pairs
    requires p in App.AvailablePlayers(s)
    ensures p in App.AvailablePlayers(r)
  {
  }

  /** Adding a player keeps the screen fine. */
  lemma AddKeepsScreenOk(sc: State, name: string)
    requires ScreenOk(sc)
    ensures ScreenOk(sc.(app := App.AddPlayer(sc.app, name)))
  {
    var r := sc.(app := App.AddPlayer(sc.app, name));
    App.AddPlayerConsistent(sc.app, name);
    assert r.app.players == sc.app.players + [r.app.players[|sc.app.players|]];
    if sc.panel.slot1.Some? {
      AvailableGrows(sc.app, r.app, sc.panel.slot1.value);
    }
    if sc.panel.slot2.Some? {
      AvailableGrows(sc.app, r.app, sc.panel.slot2.value);
    }
  }

  /** Dropping a pair keeps the screen fine. */
  lemma UnpairKeepsScreenOk(sc: State, pid: string)
    requires ScreenOk(sc)
    ensures ScreenOk(sc.(app := App.Unpair(sc.app, pid)))
  {
    var r := sc.(app := App.Unpair(sc.app, pid));
    App.UnpairConsistent(sc.app, pid);
    if sc.panel.slot1.Some? {
      AvailableGrows(sc.app, r.app, sc.panel.slot1.value);
    }
    if sc.panel.slot2.Some? {
      AvailableGrows(sc.app, r.app, sc.panel.slot2.value);
    }
  }

  /** The create button keeps the screen fine: the pair it hands the app
      joins two different available players. */
  lemma CreateKeepsScreenOk(sc: State)
    requires ScreenOk(sc)
    ensures ScreenOk(CreateClicked(sc))
  {
    var (panel, emitted) := DndArea.CreatePair(sc.panel);
    if emitted.Some? {
      App.CreatePairConsistent(sc.app, emitted.value.0, emitted.value.1);
    }
  }

  /** Every corrected action keeps the screen fine; in particular every
      pair the panel hands the app joins two players on the roster. */
  lemma StepKeepsScreenOk(sc: State, a: Action)
    requires ScreenOk(sc)
    ensures ScreenOk(Step(sc, a))
  {
    match a
    case AddPlayer(name) => AddKeepsScreenOk(sc, name);
    case RemovePlayer(id) => App.RemovePlayerConsistent(sc.app, id);
    case ClickPlayer(p) =>
      if p in Pool(sc) {
        DndArea.ClickFromDisplayKeepsSlotsDistinct(App.AvailablePlayers(sc.app), sc.panel, p);
      }
    case CreatePairClicked => CreateKeepsScreenOk(sc);
    case ClearClicked =>
    case RemoveSlot1Clicked =>
    case RemoveSlot2Clicked =>
    case Unpair(pid) => UnpairKeepsScreenOk(sc, pid);
  }

  /** Any sequence of corrected actions keeps the screen fine. */
  lemma {:induction false} RunKeepsScreenOk(sc: State, actions: seq<Action>)
    requires ScreenOk(sc)
    ensures ScreenOk(Run(sc, actions))
    decreases |actions|
  {
    if |actions| > 0 {
      StepKeepsScreenOk(sc, actions[0]);
      RunKeepsScreenOk(Step(sc, actions[0]), actions[1..]);
    }
  }

  /** From the screen on mount, whatever the user does, the app's state
      stays consistent. */
  lemma StartRunConsistent(names: seq<string>, actions: seq<Action>)
    ensures App.Consistent(Run(Start(names), actions).app)
  {
    StartOk(names);
    RunKeepsScreenOk(Start(names), actions);
  }

  /** As written, any screen with two different players in the slots
      breaks: removing the player in slot 1 from the roster and then
      pressing the create button adds a pair whose first player is no
      longer on the roster. A fine screen can be in that position: the
      roster on mount with two clicks on two of its players. */
  lemma StaleSlotPairBreaksConsistency(sc: State)
    requires sc.panel.slot1.Some? && sc.panel.slot2.Some? && DndArea.SlotsDistinct(sc.panel)
    ensures var removed := StepAsWritten(sc, RemovePlayer(sc.panel.slot1.value.id));
      var created := StepAsWritten(removed, CreatePairClicked);
      && removed.panel == sc.panel
      && |created.app.pairs| == |removed.app.pairs| + 1
      && created.app.pairs[|removed.app.pairs|].player1 !in created.app.players
      && !App.Consistent(created.app)
  {
    var x, y := sc.panel.slot1.value, sc.panel.slot2.value;
    var removed := StepAsWritten(sc, RemovePlayer(x.id));
    RemovedStaysInSlot(sc, x);
    var created := StepAsWritten(removed, CreatePairClicked);
    CreateFromFullSlots(removed);
    PairWithOutsider(removed.app, x, y);
  }

  /** As written, the removed player leaves the roster and stays in the
      slot. */
  lemma RemovedStaysInSlot(sc: State, x: Player)
    ensures var removed := StepAsWritten(sc, RemovePlayer(x.id));
      removed.panel == sc.panel && x !in removed.app.players
  {
  }

  /** With two different players in the slots, the create button hands
      them to the app and empties the panel. */
  lemma CreateFromFullSlots(sc: State)
    requires sc.panel.slot1.Some? && sc.panel.slot2.Some? && DndArea.SlotsDistinct(sc.panel)
    ensures StepAsWritten(sc, CreatePairClicked)
      == State(App.CreatePair(sc.app, sc.panel.slot1.value, sc.panel.slot2.value), DndArea.Empty)
  {
    assert DndArea.CreatePair(sc.panel) == (DndArea.Empty, Some((sc.panel.slot1.value, sc.panel.slot2.value)));
  }

  /** A pair whose first player is not on the roster breaks the app. */
  lemma PairWithOutsider(s: App.AppState, x: Player, y: Player)
    requires x !in s.players
    ensures var r := App.CreatePair(s, x, y);
      && |r.pairs| == |s.pairs| + 1
      && r.pairs[|s.pairs|].player1 !in r.players
      && !App.Consistent(r)
  {
    var r := App.CreatePair(s, x, y);
    var nq := r.pairs[|s.pairs|];
    assert nq in r.pairs && nq.player1 == x;
  }

  /** A click on a player in the pool is the panel's click handler. */
  lemma ClickShown(sc: State, p: Player)
    requires p in Pool(sc)
    ensures Step(sc, ClickPlayer(p)) == sc.(panel := DndArea.PlayerClick(sc.panel, p))
  {
  }

  /** On mount, clicking the first two players of the roster puts them in
      slot 1 and slot 2 of a fine screen: the position the lemma above
      starts from is reachable. */
  lemma TwoClicksFillSlots(names: seq<string>)
    requires |names| >= 2
    ensures var p1, p2 := Start(names).app.players[0], Start(names).app.players[1];
      var sc := Run(Start(names), [ClickPlayer(p1), ClickPlayer(p2)]);
      && ScreenOk(sc)
      && sc.panel.slot1 == Some(p1) && sc.panel.slot2 == Some(p2)
  {
    var s0 := Start(names);
    var p1, p2 := s0.app.players[0], s0.app.players[1];
    StartOk(names);
    assert p1.id != p2.id by {
      App.IdNumberOfInitial(names, 0);
      App.IdNumberOfInitial(names, 1);
    }
    var available := App.AvailablePlayers(s0.app);
    assert p1 in available && p2 in available by {
      assert p1 in s0.app.players && p2 in s0.app.players;
    }
    var s1 := Step(s0, ClickPlayer(p1));
    assert p1 in Pool(s0) by {
      assert p1 in DndArea.DisplayPlayers(available, s0.panel);
    }
    ClickShown(s0, p1);
    assert s1.panel == DndArea.Slots(Some(p1), None, None);
    var s2 := Step(s1, ClickPlayer(p2));
    assert p2 in Pool(s1) by {
      assert p2 in DndArea.DisplayPlayers(available, s1.panel);
    }
    ClickShown(s1, p2);
    assert s2.panel == DndArea.Slots(Some(p1), Some(p2), None);
    var acts := [ClickPlayer(p1), ClickPlayer(p2)];
    assert Run(s0, acts) == Run(s1, acts[1..]);
    assert Run(s1, acts[1..]) == Run(s2, []);
    RunKeepsScreenOk(s0, acts);
  }
}

=== FILE: seqs.dfy ===
/** Sequence utilities shared by the model: the order-preserving filter that
    JavaScript's `Array.prototype.filter` performs, and duplicate-freedom. */
module Seqs {

  /** `r` is `s` with some elements left out, the rest in their original
      order: the last element of `r`, if any, is either the last element
      of `s` or comes from the part of `s` before it. */
  predicate Subseq<T(==)>(r: seq<T>, s: seq<T>)
    decreases |s|
  {
    |r| == 0
    || (&& |s| > 0
        && ((r[|r| - 1] == s[|s| - 1] && Subseq(r[..|r| - 1], s[..|s| - 1]))
            || Subseq(r, s[..|s| - 1])))
  }

  /** `s.filter(keep)`: the elements of `s` that satisfy `keep`, in order. */
  function Filter<T(!new)>(s: seq<T>, keep: T -> bool): (r: seq<T>)
    ensures |r| <= |s|
    ensures forall x :: x in r <==> x in s && keep(x)
    ensures forall x :: keep(x) ==> multiset(r)[x] == multiset(s)[x]
    ensures forall x :: !keep(x) ==> multiset(r)[x] == 0
    ensures Subseq(r, s)
    decreases |s|
  {
    if |s| == 0 then []
    else
      var rest := Filter(s[..|s| - 1], keep);
      assert s == s[..|s| - 1] + [s[|s| - 1]];
      if keep(s[|s| - 1]) then rest + [s[|s| - 1]] else rest
  }

  /** No value occurs twice. */
  predicate NoDup<T(==)>(s: seq<T>) {
    forall i, j :: 0 <= i < |s| && 0 <= j < |s| && i != j ==> s[i] != s[j]
  }

  /** Duplicate-freedom is exactly "every multiplicity is at most one". */
  lemma {:induction false} NoDupMultiplicity<T>(s: seq<T>)
    ensures NoDup(s) <==> forall x :: multiset(s)[x] <= 1
    decreases |s|
  {
    if |s| == 0 {
      return;
    }
    var init, last := s[..|s| - 1], s[|s| - 1];
    assert s == init + [last];
    NoDupMultiplicity(init);
    if NoDup(s) {
      assert NoDup(init);
      forall k | 0 <= k < |init| ensures init[k] != last {
        assert init[k] == s[k];
      }
      forall x ensures multiset(s)[x] <= 1 {
        assert multiset(s)[x] == multiset(init)[x] + multiset([last])[x];
      }
    } else {
      var i, j :| 0 <= i < |s| && 0 <= j < |s| && i != j && s[i] == s[j];
      var x := s[i];
      if i < |s| - 1 && j < |s| - 1 {
        assert !NoDup(init) by {
          assert init[i] == init[j];
        }
        var y :| multiset(init)[y] > 1;
        assert multiset(s)[y] == multiset(init)[y] + multiset([last])[y];
      } else {
        var k := if i < |s| - 1 then i else j;
        assert k < |s| - 1 && init[k] == last;
        assert multiset(init)[last] >= 1;
        assert multiset(s)[last] == multiset(init)[last] + 1;
      }
    }
  }

  /** Filtering a duplicate-free sequence leaves it duplicate-free. */
  lemma FilterNoDup<T(!new)>(s: seq<T>, keep: T -> bool)
    ensures NoDup(s) ==> NoDup(Filter(s, keep))
  {
    var r := Filter(s, keep);
    NoDupMultiplicity(s);
    NoDupMultiplicity(r);
    if NoDup(s) {
      forall x ensures multiset(r)[x] <= 1 {
        if keep(x) {
          assert multiset(r)[x] == multiset(s)[x];
        }
      }
    }
  }

  /** Appending a new value keeps a sequence duplicate-free. */
  lemma NoDupAppendOne<T>(m: seq<T>, a: T)
    requires NoDup(m) && a !in m
    ensures NoDup(m + [a])
  {
    var t := m + [a];
    forall i, j | 0 <= i < |t| && 0 <= j < |t| && i != j ensures t[i] != t[j] {
      if i < |m| && j < |m| {
        assert t[i] == m[i] && t[j] == m[j];
      } else if i < |m| {
        assert t[i] in m;
      } else {
        assert t[j] in m;
      }
    }
  }

  /** Appending two new, different values keeps a sequence duplicate-free. */
  lemma NoDupAppendTwo<T>(m: seq<T>, a: T, b: T)
    requires NoDup(m) && a != b && a !in m && b !in m
    ensures NoDup(m + [a, b])
  {
    NoDupAppendOne(m, a);
    NoDupAppendOne(m + [a], b);
    assert m + [a] + [b] == m + [a, b];
  }

  /** The key of each element, in order. */
  function KeysOf<T, K>(s: seq<T>, key: T -> K): (r: seq<K>)
    ensures |r| == |s|
    ensures forall i :: 0 <= i < |s| ==> r[i] == key(s[i])
  {
    seq(|s|, i requires 0 <= i < |s| => key(s[i]))
  }

  /** The keys of the elements, as a set. */
  function KeySet<T, K>(s: seq<T>, key: T -> K): (r: set<K>)
    ensures |s| == 0 ==> r == {}
    decreases |s|
  {
    if |s| == 0 then {} else KeySet(s[..|s| - 1], key) + {key(s[|s| - 1])}
  }

  /** Appending an element adds its key to the set. */
  lemma KeySetAppend<T, K>(s: seq<T>, x: T, key: T -> K)
    ensures KeySet(s + [x], key) == KeySet(s, key) + {key(x)}
  {
    assert (s + [x])[..|s|] == s;
  }

  /** A key is in the set exactly when some element has it. */
  lemma {:induction false} KeySetHas<T, K>(s: seq<T>, key: T -> K, k: K)
    ensures k in KeySet(s, key) <==> k in KeysOf(s, key)
    decreases |s|
  {
    if |s| > 0 {
      var init := s[..|s| - 1];
      KeySetHas(init, key, k);
      assert s == init + [s[|s| - 1]];
      KeysOfAppend(init, s[|s| - 1], key);
    }
  }

  /** Appending an element appends its key. */
  lemma KeysOfAppend<T, K>(s: seq<T>, x: T, key: T -> K)
    ensures KeysOf(s + [x], key) == KeysOf(s, key) + [key(x)]
  {
  }

  /** Element `k` is the first of `s` with its key. */
  predicate FirstWithKey<T, K(==)>(s: seq<T>, key: T -> K, k: nat)
    requires k < |s|
  {
    forall j :: 0 <= j < k ==> key(s[j]) != key(s[k])
  }

  /** Walks `s` in order and keeps each element whose key has not been
      kept before. */
  function FirstOfEachKey<T, K(==)>(s: seq<T>, key: T -> K): (r: seq<T>)
    ensures |r| <= |s| && (|s| > 0 ==> |r| > 0)
    decreases |s|
  {
    if |s| == 0 then []
    else
      var rest := FirstOfEachKey(s[..|s| - 1], key);
      var x := s[|s| - 1];
      if key(x) in KeysOf(rest, key) then rest else rest + [x]
  }

  /** Only elements of `s` are kept, and no two kept elements share a
      key. */
  lemma {:induction false} FirstOfEachKeySound<T, K>(s: seq<T>, key: T -> K)
    ensures forall x :: x in FirstOfEachKey(s, key) ==> x in s
    ensures NoDup(KeysOf(FirstOfEachKey(s, key), key))
    decreases |s|
  {
    if |s| == 0 {
      return;
    }
    var init, x := s[..|s| - 1], s[|s| - 1];
    FirstOfEachKeySound(init, key);
    FirstOfEachKeyAppend(init, x, key);
    assert s == init + [x];
    var rest := FirstOfEachKey(init, key);
    if key(x) !in KeysOf(rest, key) {
      NoDupAppendOne(KeysOf(rest, key), key(x));
      KeysOfAppend(rest, x, key);
    }
  }

  /** One more element is kept exactly when its key is new. */
  lemma FirstOfEachKeyAppend<T, K>(s: seq<T>, x: T, key: T -> K)
    ensures var r := FirstOfEachKey(s, key);
      FirstOfEachKey(s + [x], key) == if key(x) in KeysOf(r, key) then r else r + [x]
  {
    assert (s + [x])[..|s|] == s;
  }

  /** The kept elements appear in the order of `s`. */
  lemma {:induction false} FirstOfEachKeyInOrder<T, K>(s: seq<T>, key: T -> K)
    ensures Subseq(FirstOfEachKey(s, key), s)
    decreases |s|
  {
    if |s| == 0 {
      return;
    }
    var init, x := s[..|s| - 1], s[|s| - 1];
    FirstOfEachKeyInOrder(init, key);
    var rest := FirstOfEachKey(init, key);
    var r := FirstOfEachKey(s, key);
    if r != rest {
      assert r == rest + [x];
      assert r[..|r| - 1] == rest;
    }
  }

  /** Every element's key is among the kept keys. */
  lemma {:induction false} FirstOfEachKeyComplete<T, K>(s: seq<T>, key: T -> K)
    ensures forall k :: 0 <= k < |s| ==> key(s[k]) in KeysOf(FirstOfEachKey(s, key), key)
    decreases |s|
  {
    if |s| == 0 {
      return;
    }
    var init, x := s[..|s| - 1], s[|s| - 1];
    FirstOfEachKeyComplete(init, key);
    FirstOfEachKeyAppend(init, x, key);
    assert s == init + [x];
    var rest := FirstOfEachKey(init, key);
    var r := FirstOfEachKey(s, key);
    forall k | 0 <= k < |s| ensures key(s[k]) in KeysOf(r, key) {
      if k < |init| {
        assert s[k] == init[k];
        assert key(init[k]) in KeysOf(rest, key);
        if r != rest {
          assert KeysOf(r, key) == KeysOf(rest, key) + [key(x)];
        }
      } else if r != rest {
        assert KeysOf(r, key) == KeysOf(rest, key) + [key(x)];
      }
    }
  }

  /** Each kept element is an element of `s` that is the first with its
      key. */
  ghost predicate AreFirsts<T, K>(r: seq<T>, s: seq<T>, key: T -> K) {
    forall i :: 0 <= i < |r| ==> exists k :: 0 <= k < |s| && r[i] == s[k] && FirstWithKey(s, key, k)
  }

  /** Every kept element is the first of `s` with its key. */
  lemma {:induction false} FirstOfEachKeyFirsts<T, K>(s: seq<T>, key: T -> K)
    ensures AreFirsts(FirstOfEachKey(s, key), s, key)
    decreases |s|
  {
    if |s| == 0 {
      return;
    }
    var init, x := s[..|s| - 1], s[|s| - 1];
    FirstOfEachKeyFirsts(init, key);
    FirstOfEachKeyAppend(init, x, key);
    assert s == init + [x];
    var rest := FirstOfEachKey(init, key);
    var r := FirstOfEachKey(s, key);
    forall i | 0 <= i < |r| ensures exists k :: 0 <= k < |s| && r[i] == s[k] && FirstWithKey(s, key, k) {
      if i < |rest| {
        var k :| 0 <= k < |init| && rest[i] == init[k] && FirstWithKey(init, key, k);
        assert r[i] == rest[i] && s[k] == init[k];
        assert FirstWithKey(s, key, k);
      } else {
        assert r == rest + [x] && r[i] == s[|s| - 1];
        assert FirstWithKey(s, key, |s| - 1) by {
          forall j | 0 <= j < |s| - 1 ensures key(s[j]) != key(x) {
            FirstOfEachKeyComplete(init, key);
            assert s[j] == init[j];
            assert key(init[j]) in KeysOf(rest, key);
          }
        }
      }
    }
  }

  /** The first `n` values of `f`, in order. */
  function Prefix<T>(f: nat -> T, n: nat): (r: seq<T>)
    ensures |r| == n
    ensures forall k :: 0 <= k < n ==> r[k] == f(k)
  {
    seq(n, k requires 0 <= k < n => f(k))
  }

  /** One more value extends the prefix by that value. */
  lemma PrefixAppend<T>(f: nat -> T, n: nat)
    ensures Prefix(f, n + 1) == Prefix(f, n) + [f(n)]
  {
  }

  /** Keeping first-of-each-key elements while remembering the kept keys
      in a set: a new element is kept, and its key remembered, exactly when
      the set does not hold its key. */
  lemma FirstOfEachKeyStep<T, K>(s: seq<T>, x: T, key: T -> K, seen: set<K>)
    requires seen == KeySet(FirstOfEachKey(s, key), key)
    ensures key(x) in seen ==>
      (FirstOfEachKey(s + [x], key) == FirstOfEachKey(s, key)
       && seen == KeySet(FirstOfEachKey(s + [x], key), key))
    ensures key(x) !in seen ==>
      (FirstOfEachKey(s + [x], key) == FirstOfEachKey(s, key) + [x]
       && seen + {key(x)} == KeySet(FirstOfEachKey(s + [x], key), key))
  {
    var r := FirstOfEachKey(s, key);
    FirstOfEachKeyAppend(s, x, key);
    KeySetHas(r, key, key(x));
    KeySetAppend(r, x, key);
  }

  /** Draws values `draw(0)`, `draw(1)`, ... and keeps each one whose key
      has not been seen, until `count` values are kept or `maxAttempts`
      values are drawn. The values kept are the first of each key among the
      values drawn; when at least one value was drawn, fewer than `count`
      were kept before the last draw. */
  method CollectFirsts<T, K(==)>(draw: nat -> T, key: T -> K, count: nat, maxAttempts: nat)
    returns (kept: seq<T>, attempts: nat)
    ensures kept == FirstOfEachKey(Prefix(draw, attempts), key)
    ensures |kept| == count || attempts == maxAttempts
    ensures attempts > 0 ==> |FirstOfEachKey(Prefix(draw, attempts - 1), key)| < count
    ensures |kept| <= count && attempts <= maxAttempts
  {
    kept := [];
    var seen: set<K> := {};
    attempts := 0;
    ghost var before: seq<T> := [];
    assert Prefix(draw, 0) == [];
    while |kept| < count && attempts < maxAttempts
      invariant attempts <= maxAttempts && |kept| <= count
      invariant kept == FirstOfEachKey(Prefix(draw, attempts), key)
      invariant seen == KeySet(kept, key)
      invariant attempts > 0 ==> before == FirstOfEachKey(Prefix(draw, attempts - 1), key) && |before| < count
      decreases maxAttempts - attempts
    {
      var x := draw(attempts);
      PrefixAppend(draw, attempts);
      FirstOfEachKeyStep(Prefix(draw, attempts), x, key, seen);
      before := kept;
      var k := key(x);
      if k !in seen {
        seen := seen + {k};
        kept := kept + [x];
      }
      attempts := attempts + 1;
    }
  }
}

=== FILE: soccer_field.dfy ===
/** The lineup viewer: the formation each team is laid out in, the shirt
    numbers, the carousel over the generated lineups, and the drag rule
    that lets a token move only inside its own half. */
module SoccerField {
  import opened Types

  /** `players.slice(start)` for a non-negative start. */
  function SliceFrom<T>(s: seq<T>, start: nat): (r: seq<T>)
    ensures |r| == (if start <= |s| then |s| - start else 0)
    ensures start <= |s| ==> r == s[start..]
  {
    if start <= |s| then s[start..] else []
  }

  /** `players.slice(start, end)` for non-negative bounds: both are clamped
      to the length, and a range that ends before it starts is empty. */
  function Slice<T>(s: seq<T>, start: nat, end: nat): (r: seq<T>)
    ensures |r| == (if start < end && start < |s| then (if end <= |s| then end else |s|) - start else 0)
    ensures start <= |s| && start <= end ==> r == s[start..if end <= |s| then end else |s|]
  {
    var from := if start <= |s| then start else |s|;
    var to := if end <= |s| then end else |s|;
    if from <= to then s[from..to] else []
  }

  /** Goalkeeper, defenders, midfielders and forwards, in shirt order. */
  datatype Formation<T> = Formation(gk: seq<T>, def: seq<T>, mid: seq<T>, fwd: seq<T>)

  /** `getFormation(players)`: one keeper, then up to two, two, three or
      four defenders and none, two, two or three midfielders as the side
      grows, and everyone else up front. */
  function GetFormation<T>(players: seq<T>): (f: Formation<T>)
    ensures f.gk + f.def + f.mid + f.fwd == players
    ensures |f.gk| == (if |players| == 0 then 0 else 1)
    ensures |players| <= 3 ==> f.def == [] && f.mid == []
    ensures 4 <= |players| <= 5 ==> |f.def| == 2 && f.mid == []
    ensures 6 <= |players| <= 7 ==> |f.def| == 2 && |f.mid| == 2
    ensures 8 <= |players| <= 9 ==> |f.def| == 3 && |f.mid| == 2
    ensures 10 <= |players| ==> |f.def| == 4 && |f.mid| == 3
  {
    var count := |players|;
    if count <= 3 then
      SlicesCover(players, 1, 1);
      Formation(Slice(players, 0, 1), [], [], SliceFrom(players, 1))
    else if count <= 5 then
      SlicesCover(players, 3, 3);
      Formation(Slice(players, 0, 1), Slice(players, 1, 3), [], SliceFrom(players, 3))
    else if count <= 7 then
      SlicesCover(players, 3, 5);
      Formation(Slice(players, 0, 1), Slice(players, 1, 3), Slice(players, 3, 5), SliceFrom(players, 5))
    else if count <= 9 then
      SlicesCover(players, 4, 6);
      Formation(Slice(players, 0, 1), Slice(players, 1, 4), Slice(players, 4, 6), SliceFrom(players, 6))
    else
      SlicesCover(players, 5, 8);
      Formation(Slice(players, 0, 1), Slice(players, 1, 5), Slice(players, 5, 8), SliceFrom(players, 8))
  }

  /** Four consecutive slices cut at 1, `a` and `b` give back the whole
      sequence, whatever its length. */
  lemma SlicesCover<T>(s: seq<T>, a: nat, b: nat)
    requires 1 <= a <= b
    ensures Slice(s, 0, 1) + Slice(s, 1, a) + Slice(s, a, b) + SliceFrom(s, b) == s
  {
    if |s| == 0 {
    } else if |s| <= a {
      assert s == s[..1] + s[1..];
    } else if |s| <= b {
      assert s == s[..1] + s[1..a] + s[a..];
    } else {
      assert s == s[..1] + s[1..a] + s[a..b] + s[b..];
    }
  }

  /** The numbers printed on the tokens: 1 for the keeper, `idx + 2` for
      defenders, and each later line continues where the previous ended. */
  function ShirtNumbers<T>(f: Formation<T>): (r: seq<int>)
    ensures |r| == |f.gk| + |f.def| + |f.mid| + |f.fwd|
    ensures forall k :: 0 <= k < |f.gk| ==> r[k] == 1
    ensures forall k :: |f.gk| <= k < |r| ==> r[k] == k - |f.gk| + 2
  {
    seq(|f.gk|, _ => 1)
    + seq(|f.def|, idx => idx + 2)
    + seq(|f.mid|, idx => idx + 2 + |f.def|)
    + seq(|f.fwd|, idx => idx + 2 + |f.def| + |f.mid|)
  }

  /** Each team's shirts read 1, 2, ..., in formation order, one per
      player. */
  lemma ShirtNumbersOneToCount<T>(players: seq<T>)
    ensures var nums := ShirtNumbers(GetFormation(players));
      |nums| == |players| && forall k :: 0 <= k < |nums| ==> nums[k] == k + 1
  {
    var f := GetFormation(players);
    var nums := ShirtNumbers(f);
    var g, d, m := |f.gk|, |f.def|, |f.mid|;
    assert |players| == g + d + m + |f.fwd| by {
      assert |f.gk + f.def + f.mid + f.fwd| == |players|;
    }
    forall k | 0 <= k < |nums| ensures nums[k] == k + 1 {
      if k < g {
        assert g == 1 && k == 0;
      } else if k < g + d {
        assert nums[k] == (k - g) + 2;
      } else if k < g + d + m {
        assert nums[k] == (k - g - d) + 2 + d;
      } else {
        assert nums[k] == (k - g - d - m) + 2 + d + m;
      }
    }
  }

  /** `handleNext`: one lineup on, wrapping from the last to the first. */
  function Next(index: nat, count: nat): (r: nat)
    requires count > 0
    ensures r < count
    ensures index < count ==> r == (index + 1) % count
  {
    if index < count - 1 then index + 1 else 0
  }

  /** `handlePrevious`: one lineup back, wrapping from the first to the
      last. From an index past the end it steps back by one only. */
  function Previous(index: nat, count: nat): (r: nat)
    requires count > 0
    ensures index < count ==> r < count && r == (index + count - 1) % count
    ensures index >= count ==> r == index - 1
  {
    if index > 0 then index - 1 else count - 1
  }

  /** Within range, next and previous undo each other. */
  lemma NextPreviousInverse(index: nat, count: nat)
    requires count > 0 && index < count
    ensures Previous(Next(index, count), count) == index
    ensures Next(Previous(index, count), count) == index
  {
  }

  /** The carousel: `currentIndex` and the number of lineups it ranges
      over. */
  datatype Carousel = Carousel(index: nat, count: nat)

  /** The shown lineup exists. */
  predicate InRange(c: Carousel) {
    c.count > 0 ==> c.index < c.count
  }

  /** A tab click: `setCurrentIndex(idx)` for one of the rendered tabs. */
  function SelectTab(c: Carousel, idx: nat): (r: Carousel)
    requires idx < c.count
    ensures InRange(r) && r.count == c.count && r.index == idx
  {
    c.(index := idx)
  }

  /** The arrows of the carousel; they are rendered only when there is a
      lineup to show. */
  function StepNext(c: Carousel): (r: Carousel)
    requires c.count > 0
    ensures InRange(r) && r.count == c.count
  {
    c.(index := Next(c.index, c.count))
  }

  function StepPrevious(c: Carousel): (r: Carousel)
    requires c.count > 0
    ensures InRange(c) ==> InRange(r)
    ensures r.count == c.count
  {
    c.(index := Previous(c.index, c.count))
  }

  /** A new `variations` prop as written: `currentIndex` is component
      state and survives the new list unchanged. */
  function ReceiveAsWritten(c: Carousel, newCount: nat): (r: Carousel)
    ensures r.count == newCount && r.index == c.index
    ensures newCount <= c.index ==> !InRange(r) || newCount == 0
  {
    Carousel(c.index, newCount)
  }

  /** A new `variations` prop, corrected: the carousel starts again at the
      first lineup. */
  function Receive(c: Carousel, newCount: nat): (r: Carousel)
    ensures InRange(r) && r.count == newCount && r.index == 0
  {
    Carousel(0, newCount)
  }

  /** What the viewer can be told: new lineups arrived, an arrow or a tab
      was clicked. */
  datatype Event = NewLineups(count: nat) | NextClicked | PreviousClicked | TabClicked(idx: nat)

  /** One event, given how new lineups are received. Arrows and tabs do
      nothing while there is no lineup, as nothing is rendered then, and a
      tab that is not rendered cannot be clicked. */
  function Apply(c: Carousel, e: Event, resetOnNew: bool): (r: Carousel)
    ensures resetOnNew && InRange(c) ==> InRange(r)
    ensures e.NewLineups? ==> r.count == e.count
    ensures e.NewLineups? ==> r.index == (if resetOnNew then 0 else c.index)
    ensures !e.NewLineups? && c.count == 0 ==> r == c
    ensures e.TabClicked? && e.idx < c.count ==> r.index == e.idx
    ensures !e.NewLineups? ==> r.count == c.count
  {
    match e
    case NewLineups(n) => if resetOnNew then Receive(c, n) else ReceiveAsWritten(c, n)
    case NextClicked => if c.count > 0 then StepNext(c) else c
    case PreviousClicked => if c.count > 0 then StepPrevious(c) else c
    case TabClicked(idx) => if idx < c.count then SelectTab(c, idx) else c
  }

  /** The viewer's state after a run of events. */
  function Run(c: Carousel, events: seq<Event>, resetOnNew: bool): (r: Carousel)
    ensures resetOnNew && InRange(c) ==> InRange(r)
    decreases |events|
  {
    if |events| == 0 then c else Run(Apply(c, events[0], resetOnNew), events[1..], resetOnNew)
  }

  /** As written, the index can point past the end: five lineups are shown
      and the back arrow moves to the fifth; the pairs are cut to one and
      regenerated, which yields at most two lineups. `variations[4]` is
      then `undefined` and `Field` fails to destructure it; the back arrow
      does not repair it either. With the reset, the same clicks end on the
      first lineup. */
  lemma StaleIndexAfterRegenerate()
    ensures var events := [NewLineups(5), PreviousClicked, NewLineups(2)];
      && Run(Carousel(0, 0), events, false) == Carousel(4, 2)
      && !InRange(Run(Carousel(0, 0), events + [PreviousClicked], false))
      && Run(Carousel(0, 0), events, true) == Carousel(0, 2)
  {
    var events := [NewLineups(5), PreviousClicked, NewLineups(2)];
    var more := events + [PreviousClicked];
    assert more[1..] == [PreviousClicked, NewLineups(2), PreviousClicked];
    assert more[1..][1..] == [NewLineups(2), PreviousClicked];
    assert more[1..][1..][1..] == [PreviousClicked];
    assert Run(Carousel(4, 2), [PreviousClicked], false) == Carousel(3, 2);
    assert Run(Carousel(4, 5), more[1..][1..], false) == Carousel(3, 2);
    assert Run(Carousel(0, 5), more[1..], false) == Carousel(3, 2);
  }

  datatype Team = A | B

  /** A pixel offset `{ x, y }`. */
  datatype Offset = Offset(x: int, y: int)

  /** The draggable id of a token: `${team}-${player.id}`. */
  function DragKey(team: Team, playerId: string): (k: string)
    ensures |k| == |playerId| + 2
  {
    (if team == A then "A" else "B") + "-" + playerId
  }

  /** Tokens of different teams, or of different players, never share a
      key, so each token's offset is stored apart from every other's. */
  lemma DragKeyInjective(t1: Team, id1: string, t2: Team, id2: string)
    requires DragKey(t1, id1) == DragKey(t2, id2)
    ensures t1 == t2 && id1 == id2
  {
    assert DragKey(t1, id1)[0] == DragKey(t2, id2)[0];
    assert id1 == DragKey(t1, id1)[2..];
    assert id2 == DragKey(t2, id2)[2..];
  }

  /** `playerPositions[playerId] || { x: 0, y: 0 }` */
  function CurrentOffset(positions: map<string, Offset>, key: string): Offset {
    if key in positions then positions[key] else Offset(0, 0)
  }

  /** `handleDragEnd`: a token released over its own team's half moves by
      the drag's delta; released over the other half or outside any half,
      nothing moves. */
  function DragEnd(positions: map<string, Offset>, key: string, dragged: Team, over: Option<Team>, delta: Offset)
    : (r: map<string, Offset>)
    ensures over != Some(dragged) ==> r == positions
    ensures over == Some(dragged) ==> r.Keys == positions.Keys + {key}
    ensures over == Some(dragged) ==>
      r[key].x - CurrentOffset(positions, key).x == delta.x && r[key].y - CurrentOffset(positions, key).y == delta.y
    ensures forall k :: k in positions && k != key ==> k in r && r[k] == positions[k]
  {
    if over.Some? && over.value == dragged then
      var cur := CurrentOffset(positions, key);
      positions[key := Offset(cur.x + delta.x, cur.y + delta.y)]
    else positions
  }

  /** Two accepted drops of the same token move it by the sum of their
      deltas, and a rejected drop in between changes nothing. */
  lemma DragsAccumulate(positions: map<string, Offset>, key: string, team: Team, other: Option<Team>,
                        d1: Offset, d2: Offset, d3: Offset)
    requires other != Some(team)
    ensures var p1 := DragEnd(positions, key, team, Some(team), d1);
      var p2 := DragEnd(p1, key, team, other, d3);
      var p3 := DragEnd(p2, key, team, Some(team), d2);
      p3[key] == Offset(CurrentOffset(positions, key).x + d1.x + d2.x, CurrentOffset(positions, key).y + d1.y + d2.y)
  {
  }
}

=== FILE: string_order.dfy ===
/** The default order of `Array.prototype.sort()` on strings: lexicographic by
    character code, a proper prefix first. Sorting with it, by any correct
    algorithm, yields the one sorted arrangement of the multiset. */
module StringOrder {

  /** `a` sorts no later than `b`. */
  predicate Le(a: string, b: string)
    decreases |a|
  {
    |a| == 0 || (|b| > 0 && (a[0] < b[0] || (a[0] == b[0] && Le(a[1..], b[1..]))))
  }

  lemma {:induction false} LeReflexive(a: string)
    ensures Le(a, a)
    decreases |a|
  {
    if |a| > 0 {
      LeReflexive(a[1..]);
    }
  }

  lemma {:induction false} LeAntisymmetric(a: string, b: string)
    requires Le(a, b) && Le(b, a)
    ensures a == b
    decreases |a|
  {
    if |a| > 0 {
      assert |b| > 0 && a[0] == b[0];
      LeAntisymmetric(a[1..], b[1..]);
      assert a == [a[0]] + a[1..] && b == [b[0]] + b[1..];
    }
  }

  lemma {:induction false} LeTransitive(a: string, b: string, c: string)
    requires Le(a, b) && Le(b, c)
    ensures Le(a, c)
    decreases |a|
  {
    if |a| > 0 && a[0] == b[0] && b[0] == c[0] {
      LeTransitive(a[1..], b[1..], c[1..]);
    }
  }

  lemma {:induction false} LeTotal(a: string, b: string)
    ensures Le(a, b) || Le(b, a)
    decreases |a|
  {
    if |a| > 0 && |b| > 0 && a[0] == b[0] {
      LeTotal(a[1..], b[1..]);
    }
  }

  /** Non-decreasing in the string order. */
  predicate Sorted(s: seq<string>) {
    forall i, j :: 0 <= i < j < |s| ==> Le(s[i], s[j])
  }

  /** Places `x` before the first element it sorts no later than. */
  function Insert(x: string, s: seq<string>): (r: seq<string>)
    requires Sorted(s)
    ensures Sorted(r)
    ensures multiset(r) == multiset(s) + multiset{x}
    decreases |s|
  {
    if |s| == 0 then [x]
    else if Le(x, s[0]) then
      LeastOfSorted(x, s);
      PrependSorted(x, s);
      [x] + s
    else
      var rest := Insert(x, s[1..]);
      assert s == [s[0]] + s[1..];
      LeTotal(x, s[0]);
      assert forall y :: y in rest ==> Le(s[0], y) by {
        forall y | y in rest ensures Le(s[0], y) {
          assert y in multiset(rest);
          if y != x {
            assert y in s[1..];
          }
        }
      }
      PrependSorted(s[0], rest);
      [s[0]] + rest
  }

  /** Something no later than the head of a sorted list is no later than
      any of its elements. */
  lemma LeastOfSorted(x: string, s: seq<string>)
    requires Sorted(s) && |s| > 0 && Le(x, s[0])
    ensures forall y :: y in s ==> Le(x, y)
  {
    forall y | y in s ensures Le(x, y) {
      SortedHeadLeast(s, y);
      LeTransitive(x, s[0], y);
    }
  }

  lemma PrependSorted(x: string, s: seq<string>)
    requires Sorted(s)
    requires forall y :: y in s ==> Le(x, y)
    ensures Sorted([x] + s)
  {
    var r := [x] + s;
    forall i, j | 0 <= i < j < |r| ensures Le(r[i], r[j]) {
      if i == 0 {
        assert r[j] in s;
      } else {
        assert r[i] == s[i - 1] && r[j] == s[j - 1];
      }
    }
  }

  /** `names.sort()`. */
  function Sort(s: seq<string>): (r: seq<string>)
    ensures Sorted(r)
    ensures multiset(r) == multiset(s)
    decreases |s|
  {
    if |s| == 0 then []
    else
      assert s == s[..|s| - 1] + [s[|s| - 1]];
      Insert(s[|s| - 1], Sort(s[..|s| - 1]))
  }

  /** The head of a sorted list sorts no later than anything in it. */
  lemma SortedHeadLeast(s: seq<string>, y: string)
    requires Sorted(s) && y in s
    ensures Le(s[0], y)
  {
    var i :| 0 <= i < |s| && s[i] == y;
    if i == 0 {
      LeReflexive(y);
    }
  }

  /** A multiset has exactly one sorted arrangement. */
  lemma {:induction false} SortedUnique(a: seq<string>, b: seq<string>)
    requires Sorted(a) && Sorted(b)
    requires multiset(a) == multiset(b)
    ensures a == b
    decreases |a|
  {
    if |a| == 0 {
      assert |b| == |multiset(b)| == 0;
      return;
    }
    assert |b| == |multiset(b)| == |a|;
    assert a[0] in multiset(b) && b[0] in multiset(a);
    SortedHeadLeast(b, a[0]);
    SortedHeadLeast(a, b[0]);
    LeAntisymmetric(a[0], b[0]);
    TailMultiset(a);
    TailMultiset(b);
    SortedUnique(a[1..], b[1..]);
    assert a == [a[0]] + a[1..] && b == [b[0]] + b[1..];
  }

  lemma TailMultiset(s: seq<string>)
    requires |s| > 0
    ensures multiset(s[1..]) == multiset(s) - multiset{s[0]}
  {
    assert s == [s[0]] + s[1..];
  }

  /** Sorting forgets exactly the order: two lists sort to the same result
      if and only if they hold the same strings the same number of times. */
  lemma SortEqualIff(a: seq<string>, b: seq<string>)
    ensures Sort(a) == Sort(b) <==> multiset(a) == multiset(b)
  {
    if multiset(a) == multiset(b) {
      SortedUnique(Sort(a), Sort(b));
    }
  }
}

=== FILE: team_generator.dfy ===
/** The lineup generator: a Fisher-Yates shuffle of the pairs, a coin per
    pair deciding which member plays for team A, an order-independent
    signature per lineup, and a bounded loop collecting lineups whose
    signatures are new. Only paired players take part; unpaired players
    never appear in a lineup. */
module TeamGenerator {
  import opened Types
  import opened Seqs
  import opened Random
  import StringOrder

  // ---------------------------------------------------------------------
  // Shuffle

  /** Exchanges the elements at `i` and `j`. */
  function Swap<T>(s: seq<T>, i: nat, j: nat): (r: seq<T>)
    requires i < |s| && j < |s|
    ensures |r| == |s| && multiset(r) == multiset(s)
    ensures r[i] == s[j] && r[j] == s[i]
    ensures forall k :: 0 <= k < |s| && k != i && k != j ==> r[k] == s[k]
  {
    var t := s[i := s[j]];
    assert multiset(t) == multiset(s) - multiset{s[i]} + multiset{s[j]};
    t[j := s[i]]
  }

  /** The Fisher-Yates loop from index `i` down to 1: each step swaps
      position `i` with a random position in [0, i]. Returns the result and
      the next unused draw. */
  function ShuffleDown<T>(s: seq<T>, i: nat, rng: Stream, cursor: nat): (r: (seq<T>, nat))
    requires i < |s|
    ensures |r.0| == |s| && multiset(r.0) == multiset(s)
    ensures r.1 == cursor + i
    decreases i
  {
    if i == 0 then (s, cursor)
    else ShuffleDown(Swap(s, i, IndexBelow(rng(cursor), i + 1)), i - 1, rng, cursor + 1)
  }

  /** `shuffleArray(array)`: a rearrangement of a copy of `s`, using one draw
      per index from the last down to 1. */
  function Shuffle<T>(s: seq<T>, rng: Stream, cursor: nat): (r: (seq<T>, nat))
    ensures |r.0| == |s| && multiset(r.0) == multiset(s)
    ensures r.1 == cursor + (if |s| == 0 then 0 else |s| - 1)
  {
    if |s| == 0 then (s, cursor) else ShuffleDown(s, |s| - 1, rng, cursor)
  }

  // ---------------------------------------------------------------------
  // Split

  /** `a` and `b` are the two members of `p`, in either order. */
  predicate Opposed(p: Pair, a: Player, b: Player) {
    (a == p.player1 && b == p.player2) || (a == p.player2 && b == p.player1)
  }

  /** The `forEach` of `generateSingleLineup`: one coin per pair, in order;
      heads sends player1 to team A and player2 to team B, tails the
      reverse. */
  function Assign(ps: seq<Pair>, rng: Stream, cursor: nat): (r: (Lineup, nat))
    ensures |r.0.teamA| == |ps| && |r.0.teamB| == |ps|
    ensures forall k :: 0 <= k < |ps| ==> Opposed(ps[k], r.0.teamA[k], r.0.teamB[k])
    ensures forall k :: 0 <= k < |ps| ==>
      r.0.teamA[k] == (if Heads(rng(cursor + k)) then ps[k].player1 else ps[k].player2)
    ensures r.1 == cursor + |ps|
    decreases |ps|
  {
    if |ps| == 0 then (Lineup([], []), cursor)
    else
      var (l, c) := Assign(ps[..|ps| - 1], rng, cursor);
      var p := ps[|ps| - 1];
      if Heads(rng(c)) then (Lineup(l.teamA + [p.player1], l.teamB + [p.player2]), c + 1)
      else (Lineup(l.teamA + [p.player2], l.teamB + [p.player1]), c + 1)
  }

  /** Position by position, the lineup takes one member of `order[k]` for
      each team. */
  predicate SplitsInOrder(l: Lineup, order: seq<Pair>) {
    && |l.teamA| == |order|
    && |l.teamB| == |order|
    && forall k :: 0 <= k < |order| ==> Opposed(order[k], l.teamA[k], l.teamB[k])
  }

  /** The lineup splits every pair across the teams, in some order of the
      pairs. */
  ghost predicate SplitsPairs(l: Lineup, pairs: seq<Pair>) {
    exists order :: multiset(order) == multiset(pairs) && SplitsInOrder(l, order)
  }

  /** Draws one lineup costs: the shuffle's plus one coin per pair. */
  function DrawsPerLineup(n: nat): nat {
    if n == 0 then 0 else 2 * n - 1
  }

  /** `generateSingleLineup(pairs)`: shuffle the pairs, then split each. */
  function GenerateSingleLineup(pairs: seq<Pair>, rng: Stream, cursor: nat): (r: (Lineup, nat))
    ensures |r.0.teamA| == |pairs| && |r.0.teamB| == |pairs|
    ensures SplitsPairs(r.0, pairs)
    ensures r.1 == cursor + DrawsPerLineup(|pairs|)
  {
    var (shuffled, c) := Shuffle(pairs, rng, cursor);
    var (l, c') := Assign(shuffled, rng, c);
    assert SplitsInOrder(l, shuffled);
    (l, c')
  }

  lemma SplitsInOrderCovers(l: Lineup, order: seq<Pair>)
    requires SplitsInOrder(l, order)
    ensures multiset(l.teamA + l.teamB) == multiset(Members(order))
  {
    TeamsCoverMembers(l.teamA, l.teamB, order);
  }

  lemma {:induction false} TeamsCoverMembers(ta: seq<Player>, tb: seq<Player>, order: seq<Pair>)
    requires |ta| == |order| && |tb| == |order|
    requires forall k :: 0 <= k < |order| ==> Opposed(order[k], ta[k], tb[k])
    ensures multiset(ta + tb) == multiset(Members(order))
    decreases |order|
  {
    if |order| > 0 {
      var n := |order| - 1;
      var p := order[n];
      TeamsCoverMembers(ta[..n], tb[..n], order[..n]);
      OpposedMultiset(p, ta[n], tb[n]);
      DropLastBoth(ta, tb);
      assert Members(order) == Members(order[..n]) + [p.player1, p.player2];
    }
  }

  lemma DropLastBoth<T>(a: seq<T>, b: seq<T>)
    requires |a| > 0 && |b| > 0
    ensures multiset(a + b)
         == multiset(a[..|a| - 1] + b[..|b| - 1]) + multiset{a[|a| - 1], b[|b| - 1]}
  {
    assert a == a[..|a| - 1] + [a[|a| - 1]];
    assert b == b[..|b| - 1] + [b[|b| - 1]];
  }

  lemma OpposedMultiset(p: Pair, a: Player, b: Player)
    requires Opposed(p, a, b)
    ensures multiset{a, b} == multiset([p.player1, p.player2])
  {
  }

  /** Coverage: the two teams together hold exactly the members of the pairs,
      each as often as it occurs there, and nobody else. */
  lemma LineupCoversPairMembers(l: Lineup, pairs: seq<Pair>)
    requires SplitsPairs(l, pairs)
    ensures |l.teamA| == |pairs| && |l.teamB| == |pairs|
    ensures multiset(l.teamA + l.teamB) == multiset(Members(pairs))
  {
    var order :| multiset(order) == multiset(pairs) && SplitsInOrder(l, order);
    assert |order| == |multiset(order)| == |pairs|;
    SplitsInOrderCovers(l, order);
    MembersPermutation(order, pairs);
  }

  /** Pair opposition: each pair has one member in each team. */
  lemma PairOnOppositeTeams(l: Lineup, pairs: seq<Pair>, p: Pair)
    requires SplitsPairs(l, pairs) && p in pairs
    ensures (p.player1 in l.teamA && p.player2 in l.teamB)
         || (p.player2 in l.teamA && p.player1 in l.teamB)
  {
    var order :| multiset(order) == multiset(pairs) && SplitsInOrder(l, order);
    assert p in multiset(order);
    var k :| 0 <= k < |order| && order[k] == p;
    assert Opposed(p, l.teamA[k], l.teamB[k]);
  }

  /** When no player belongs to two pairs, or twice to one, each pair has
      exactly one member in team A and the other in team B. */
  lemma PairOnExactlyOneSide(l: Lineup, pairs: seq<Pair>, p: Pair)
    requires SplitsPairs(l, pairs) && p in pairs
    requires NoDup(Members(pairs))
    ensures p.player1 != p.player2
    ensures (p.player1 in l.teamA <==> p.player1 !in l.teamB)
    ensures (p.player2 in l.teamA <==> p.player2 !in l.teamB)
    ensures (p.player1 in l.teamA <==> p.player2 in l.teamB)
  {
    PairOnOppositeTeams(l, pairs, p);
    LineupCoversPairMembers(l, pairs);
    NoDupMultiplicity(Members(pairs));
    var m := multiset(l.teamA + l.teamB);
    assert m == multiset(l.teamA) + multiset(l.teamB);
    assert m[p.player1] <= 1 && m[p.player2] <= 1;
  }

  /** Nobody outside the pairs is put on a team. */
  lemma OnlyPairMembersPlay(l: Lineup, pairs: seq<Pair>, x: Player)
    requires SplitsPairs(l, pairs)
    requires x in l.teamA || x in l.teamB
    ensures x in Members(pairs)
  {
    LineupCoversPairMembers(l, pairs);
    assert x in multiset(l.teamA + l.teamB);
  }

  // ---------------------------------------------------------------------
  // Signature

  /** `team.map(p => p.name)`. */
  function Names(team: seq<Player>): (r: seq<string>)
    ensures |r| == |team|
    ensures forall k :: 0 <= k < |team| ==> r[k] == team[k].name
  {
    seq(|team|, k requires 0 <= k < |team| => team[k].name)
  }

  /** The two sorted name lists the signature string is joined from. */
  datatype Signature = Signature(namesA: seq<string>, namesB: seq<string>)

  /** `createLineupSignature(lineup)`, before the `,` and `|` joins: each
      team's names, sorted. */
  function LineupSignature(l: Lineup): (g: Signature)
    ensures StringOrder.Sorted(g.namesA) && multiset(g.namesA) == multiset(Names(l.teamA))
    ensures StringOrder.Sorted(g.namesB) && multiset(g.namesB) == multiset(Names(l.teamB))
  {
    Signature(StringOrder.Sort(Names(l.teamA)), StringOrder.Sort(Names(l.teamB)))
  }

  /** Two lineups share a signature exactly when each team holds the same
      names the same number of times: the order players were appended in
      does not matter, and which team a name is on does. */
  lemma SignatureEqualIff(l1: Lineup, l2: Lineup)
    ensures LineupSignature(l1) == LineupSignature(l2) <==>
      (multiset(Names(l1.teamA)) == multiset(Names(l2.teamA))
       && multiset(Names(l1.teamB)) == multiset(Names(l2.teamB)))
  {
    StringOrder.SortEqualIff(Names(l1.teamA), Names(l2.teamA));
    StringOrder.SortEqualIff(Names(l1.teamB), Names(l2.teamB));
  }

  /** Swapping the teams changes the signature unless both teams hold the
      same names. */
  lemma SwappedTeamsSignature(l: Lineup)
    ensures LineupSignature(Lineup(l.teamB, l.teamA)) == LineupSignature(l) <==>
      multiset(Names(l.teamA)) == multiset(Names(l.teamB))
  {
    SignatureEqualIff(Lineup(l.teamB, l.teamA), l);
  }

  /** `names.join(',')`. */
  function Join(names: seq<string>): string
    decreases |names|
  {
    if |names| == 0 then ""
    else if |names| == 1 then names[0]
    else Join(names[..|names| - 1]) + "," + names[|names| - 1]
  }

  /** `createLineupSignature(lineup)` as written: the two sorted name lists
      joined with `,` and then with `|`. */
  function SignatureString(l: Lineup): string {
    Join(StringOrder.Sort(Names(l.teamA))) + "|" + Join(StringOrder.Sort(Names(l.teamB)))
  }

  /** The joined string loses the list structure when a name contains a
      comma. For example, with pairs ("a,b" vs "a") and ("c" vs "b,c"), the
      lineup with "a,b" and "c" in team A and the one with "a" and "b,c" in
      team A hold different names on each side, yet both signatures read
      `a,b,c|a,b,c`, so the generator drops whichever comes second. */
  lemma SignatureStringCollision(u: string, v: string, t: string)
    requires |u| > 0 && |v| > 0 && |t| > 0 && u[0] < v[0] && u[0] < t[0]
    ensures var x, y := Player("player-1", u + "," + v), Player("player-2", u);
      var z, w := Player("player-3", t), Player("player-4", v + "," + t);
      var pairs := [Pair("pair-1", x, y), Pair("pair-2", z, w)];
      var l1, l2 := Lineup([x, z], [y, w]), Lineup([y, w], [x, z]);
      && SplitsPairs(l1, pairs) && SplitsPairs(l2, pairs)
      && LineupSignature(l1) != LineupSignature(l2)
      && SignatureString(l1) == SignatureString(l2)
  {
    var x, y := Player("player-1", u + "," + v), Player("player-2", u);
    var z, w := Player("player-3", t), Player("player-4", v + "," + t);
    var pairs := [Pair("pair-1", x, y), Pair("pair-2", z, w)];
    var l1, l2 := Lineup([x, z], [y, w]), Lineup([y, w], [x, z]);
    assert SplitsInOrder(l1, pairs) && SplitsInOrder(l2, pairs);
    SplitsInOwnOrder(l1, pairs);
    SplitsInOwnOrder(l2, pairs);
    var n1, n2 := [x.name, z.name], [y.name, w.name];
    NamesTwo(x, z);
    NamesTwo(y, w);
    assert x.name[0] == u[0] && w.name[0] == v[0];
    SortJoinTwo(x.name, z.name);
    SortJoinTwo(y.name, w.name);
    CommaRegroup(u, v, t);
    assert n1 != n2 by {
      assert |n1[0]| > |n2[0]|;
    }
  }

  lemma NamesTwo(a: Player, b: Player)
    ensures Names([a, b]) == [a.name, b.name]
  {
  }

  /** Where the middle comma sits cannot be seen once the pieces are
      joined. */
  lemma CommaRegroup(u: string, v: string, t: string)
    ensures (u + "," + v) + "," + t == u + "," + (v + "," + t)
  {
  }

  /** A lineup split in the pairs' own order splits the pairs. */
  lemma SplitsInOwnOrder(l: Lineup, pairs: seq<Pair>)
    requires SplitsInOrder(l, pairs)
    ensures SplitsPairs(l, pairs)
  {
  }

  /** Two names in order sort to themselves and join around one comma. */
  lemma SortJoinTwo(a: string, b: string)
    requires |a| > 0 && |b| > 0 && a[0] < b[0]
    ensures StringOrder.Sort([a, b]) == [a, b]
    ensures Join([a, b]) == a + "," + b
  {
    assert StringOrder.Le(a, b);
    StringOrder.SortedUnique(StringOrder.Sort([a, b]), [a, b]);
    assert [a, b][..1] == [a];
  }

  /** A name the joined signature can carry: non-empty and free of both
      separators. */
  predicate PlainName(n: string) {
    |n| > 0 && ',' !in n && '|' !in n
  }

  /** The position of the last comma in `s`. */
  function LastComma(s: string): (i: nat)
    requires ',' in s
    ensures i < |s| && s[i] == ',' && ',' !in s[i + 1..]
    decreases |s|
  {
    if s[|s| - 1] == ',' then |s| - 1
    else
      var init := s[..|s| - 1];
      assert ',' in init by {
        var k :| 0 <= k < |s| && s[k] == ',';
        assert init[k] == ',';
      }
      var i := LastComma(init);
      assert s[i + 1..] == init[i + 1..] + [s[|s| - 1]];
      i
  }

  /** A comma after which no other comma follows is the last one. */
  lemma LastCommaAt(s: string, i: nat)
    requires i < |s| && s[i] == ',' && ',' !in s[i + 1..]
    ensures LastComma(s) == i
  {
    var j := LastComma(s);
    NoCommaAfter(s, i);
    NoCommaAfter(s, j);
  }

  /** No comma follows position `i`. */
  lemma NoCommaAfter(s: string, i: nat)
    requires i < |s| && ',' !in s[i + 1..]
    ensures forall k :: i < k < |s| ==> s[k] != ','
  {
    forall k | i < k < |s| ensures s[k] != ',' {
      assert s[k] == s[i + 1..][k - i - 1];
    }
  }

  /** `s.split(',')`: the comma-free pieces between the commas. It undoes
      `Join` on comma-free names. */
  function SplitOnComma(s: string): (r: seq<string>)
    ensures |r| > 0
    decreases |s|
  {
    if ',' !in s then [s]
    else
      var i := LastComma(s);
      SplitOnComma(s[..i]) + [s[i + 1..]]
  }

  /** Splitting the joined names gives the names back, when none holds a
      comma. */
  lemma {:induction false} SplitJoin(names: seq<string>)
    requires |names| > 0 && forall k :: 0 <= k < |names| ==> ',' !in names[k]
    ensures SplitOnComma(Join(names)) == names
    decreases |names|
  {
    if |names| > 1 {
      var init, last := names[..|names| - 1], names[|names| - 1];
      SplitJoin(init);
      var j := Join(init);
      var s := j + "," + last;
      assert Join(names) == s;
      assert s[|j|] == ',' && s[..|j|] == j && s[|j| + 1..] == last;
      LastCommaAt(s, |j|);
      assert names == init + [last];
    }
  }

  /** Joining comma-free names loses nothing: two lists of non-empty
      comma-free names join to the same string only if they are equal. */
  lemma JoinInjective(a: seq<string>, b: seq<string>)
    requires forall k :: 0 <= k < |a| ==> PlainName(a[k])
    requires forall k :: 0 <= k < |b| ==> PlainName(b[k])
    requires Join(a) == Join(b)
    ensures a == b
  {
    if |a| == 0 || |b| == 0 {
      JoinEmpty(a);
      JoinEmpty(b);
    } else {
      SplitJoin(a);
      SplitJoin(b);
    }
  }

  /** Only the empty list of non-empty names joins to the empty string. */
  lemma JoinEmpty(names: seq<string>)
    requires forall k :: 0 <= k < |names| ==> |names[k]| > 0
    ensures Join(names) == [] <==> |names| == 0
  {
  }

  /** A character no name holds, other than the comma, is not in the
      joined string. */
  lemma {:induction false} JoinAvoids(names: seq<string>, c: char)
    requires c != ','
    requires forall k :: 0 <= k < |names| ==> c !in names[k]
    ensures c !in Join(names)
    decreases |names|
  {
    if |names| > 1 {
      JoinAvoids(names[..|names| - 1], c);
    }
  }

  /** Everything a sequence holds, another with the same elements holds
      too. */
  lemma PlainNamesTransfer(a: seq<string>, b: seq<string>)
    requires multiset(a) == multiset(b)
    requires forall k :: 0 <= k < |a| ==> PlainName(a[k])
    ensures forall k :: 0 <= k < |b| ==> PlainName(b[k])
  {
    forall k | 0 <= k < |b| ensures PlainName(b[k]) {
      assert b[k] in multiset(b);
      var i :| 0 <= i < |a| && a[i] == b[k];
    }
  }

  /** In `x + "|" + y` with no bar in `x`, the first bar sits right after
      `x`. */
  lemma FirstBar(s: string, x: string, y: string)
    requires '|' !in x && s == x + "|" + y
    ensures s[|x|] == '|' && forall k :: 0 <= k < |x| ==> s[k] != '|'
  {
    forall k | 0 <= k < |x| ensures s[k] != '|' {
      assert s[k] == x[k];
    }
  }

  /** Two strings `x + "|" + y` split at their first bar agree piecewise. */
  lemma BarSplit(x1: string, y1: string, x2: string, y2: string)
    requires '|' !in x1 && '|' !in x2
    requires x1 + "|" + y1 == x2 + "|" + y2
    ensures x1 == x2 && y1 == y2
  {
    var s := x1 + "|" + y1;
    FirstBar(s, x1, y1);
    FirstBar(s, x2, y2);
    assert |x1| == |x2|;
    assert x1 == s[..|x1|] && x2 == s[..|x2|];
    assert y1 == s[|x1| + 1..] && y2 == s[|x2| + 1..];
  }

  /** Every player's name in the lineup is plain. */
  predicate PlainNames(l: Lineup) {
    forall p :: p in l.teamA + l.teamB ==> PlainName(p.name)
  }

  /** The joined string is exactly as fine as the structured signature as
      long as no name is empty or holds a `,` or a `|`: then two lineups
      get the same string if and only if they get the same signature. */
  lemma SignatureStringAgrees(l1: Lineup, l2: Lineup)
    requires PlainNames(l1) && PlainNames(l2)
    ensures SignatureString(l1) == SignatureString(l2) <==> LineupSignature(l1) == LineupSignature(l2)
  {
    var g1, g2 := LineupSignature(l1), LineupSignature(l2);
    assert SignatureString(l1) == Join(g1.namesA) + "|" + Join(g1.namesB);
    assert SignatureString(l2) == Join(g2.namesA) + "|" + Join(g2.namesB);
    if SignatureString(l1) == SignatureString(l2) {
      PlainTeam(l1.teamA, l1);
      PlainTeam(l1.teamB, l1);
      PlainTeam(l2.teamA, l2);
      PlainTeam(l2.teamB, l2);
      PlainNamesTransfer(Names(l1.teamA), g1.namesA);
      PlainNamesTransfer(Names(l1.teamB), g1.namesB);
      PlainNamesTransfer(Names(l2.teamA), g2.namesA);
      PlainNamesTransfer(Names(l2.teamB), g2.namesB);
      JoinAvoids(g1.namesA, '|');
      JoinAvoids(g2.namesA, '|');
      BarSplit(Join(g1.namesA), Join(g1.namesB), Join(g2.namesA), Join(g2.namesB));
      JoinInjective(g1.namesA, g2.namesA);
      JoinInjective(g1.namesB, g2.namesB);
    }
  }

  /** The names of one team of a lineup with plain names are plain. */
  lemma PlainTeam(team: seq<Player>, l: Lineup)
    requires PlainNames(l)
    requires team == l.teamA || team == l.teamB
    ensures forall k :: 0 <= k < |Names(team)| ==> PlainName(Names(team)[k])
  {
    forall k | 0 <= k < |team| ensures PlainName(team[k].name) {
      assert team[k] in l.teamA + l.teamB;
    }
  }

  // ---------------------------------------------------------------------
  // Collector

  /** No two lineups share a signature. */
  predicate DistinctSignatures(vs: seq<Lineup>) {
    forall i, j :: 0 <= i < j < |vs| ==> LineupSignature(vs[i]) != LineupSignature(vs[j])
  }

  /** The draws taken by `k` attempts on `n` pairs: every attempt takes
      the same number. */
  function AttemptDraws(k: nat, n: nat): (r: nat)
    ensures k > 0 && n > 0 ==> r >= k
  {
    if k == 0 then 0 else AttemptDraws(k - 1, n) + DrawsPerLineup(n)
  }

  /** `k` attempts take `k` times the draws of one. */
  lemma {:induction false} AttemptDrawsProduct(k: nat, n: nat)
    ensures AttemptDraws(k, n) == k * DrawsPerLineup(n)
  {
    if k > 0 {
      AttemptDrawsProduct(k - 1, n);
      assert k * DrawsPerLineup(n) == (k - 1) * DrawsPerLineup(n) + DrawsPerLineup(n);
    }
  }

  /** The lineup drawn on attempt `k` (from 0), which starts after the
      draws of the `k` attempts before it. */
  function Drawn(pairs: seq<Pair>, rng: Stream, cursor: nat, k: nat): Lineup {
    GenerateSingleLineup(pairs, rng, cursor + AttemptDraws(k, |pairs|)).0
  }

  /** Attempt number to the lineup it draws. */
  function DrawFn(pairs: seq<Pair>, rng: Stream, cursor: nat): nat -> Lineup {
    (k: nat) => Drawn(pairs, rng, cursor, k)
  }

  /** The lineups of the first `n` attempts, in order. */
  function Draws(pairs: seq<Pair>, rng: Stream, cursor: nat, n: nat): (r: seq<Lineup>)
    ensures |r| == n
    ensures forall k :: 0 <= k < n ==> r[k] == Drawn(pairs, rng, cursor, k)
  {
    Prefix(DrawFn(pairs, rng, cursor), n)
  }

  /** The lineups kept after `n` attempts: each drawn lineup is kept when
      no lineup kept before it has its signature. */
  function Kept(pairs: seq<Pair>, rng: Stream, cursor: nat, n: nat): seq<Lineup> {
    FirstOfEachKey(Prefix(DrawFn(pairs, rng, cursor), n), LineupSignature)
  }

  /** Every kept lineup is one of the drawn ones, so it splits the pairs,
      and no two kept lineups share a signature. */
  lemma KeptSound(pairs: seq<Pair>, rng: Stream, cursor: nat, n: nat)
    ensures |Kept(pairs, rng, cursor, n)| <= n && (n > 0 ==> |Kept(pairs, rng, cursor, n)| > 0)
    ensures forall v :: v in Kept(pairs, rng, cursor, n) ==> SplitsPairs(v, pairs)
    ensures DistinctSignatures(Kept(pairs, rng, cursor, n))
  {
    var ds := Draws(pairs, rng, cursor, n);
    var r := Kept(pairs, rng, cursor, n);
    FirstOfEachKeySound(ds, LineupSignature);
    forall v | v in r ensures SplitsPairs(v, pairs) {
      assert v in ds;
    }
    var keys := KeysOf(r, LineupSignature);
    forall i, j | 0 <= i < j < |r| ensures LineupSignature(r[i]) != LineupSignature(r[j]) {
      assert keys[i] != keys[j];
    }
  }

  /** The keep rule, first direction: the signature of every attempt is
      the signature of some kept lineup, so a lineup is skipped only as a
      repeat. */
  lemma EveryDrawnSignatureKept(pairs: seq<Pair>, rng: Stream, cursor: nat, n: nat)
    ensures forall k :: 0 <= k < n ==>
      LineupSignature(Draws(pairs, rng, cursor, n)[k]) in KeysOf(Kept(pairs, rng, cursor, n), LineupSignature)
  {
    FirstOfEachKeyComplete(Draws(pairs, rng, cursor, n), LineupSignature);
  }

  /** The keep rule, second direction: every kept lineup is one of the
      attempts, and the first attempt with its signature, so no lineup
      with a new signature is skipped. */
  lemma KeptAreFirstOfSignature(pairs: seq<Pair>, rng: Stream, cursor: nat, n: nat)
    ensures AreFirsts(Kept(pairs, rng, cursor, n), Draws(pairs, rng, cursor, n), LineupSignature)
  {
    FirstOfEachKeyFirsts(Draws(pairs, rng, cursor, n), LineupSignature);
  }

  /** The kept lineups come in the order they were drawn. */
  lemma KeptInDrawOrder(pairs: seq<Pair>, rng: Stream, cursor: nat, n: nat)
    ensures Subseq(Kept(pairs, rng, cursor, n), Draws(pairs, rng, cursor, n))
  {
    FirstOfEachKeyInOrder(Draws(pairs, rng, cursor, n), LineupSignature);
  }

  /** `generateTeamVariations(pairs, count)`: no lineups for no pairs;
      otherwise attempts go on until `count` lineups are kept or
      `count * 10` attempts are used up, and a drawn lineup is kept when the
      set of signatures seen so far does not hold its signature. Returns
      the lineups, the number of attempts and the next unused draw. */
  method GenerateTeamVariations(pairs: seq<Pair>, count: nat, rng: Stream, cursor: nat)
    returns (variations: seq<Lineup>, attempts: nat, next: nat)
    ensures |pairs| == 0 ==> variations == [] && attempts == 0 && next == cursor
    ensures |pairs| > 0 ==> variations == Kept(pairs, rng, cursor, attempts)
    ensures |pairs| > 0 ==> |variations| == count || attempts == count * 10
    ensures |pairs| > 0 && attempts > 0 ==> |Kept(pairs, rng, cursor, attempts - 1)| < count
    ensures |variations| <= count && attempts <= count * 10
    ensures next == cursor + AttemptDraws(attempts, |pairs|)
    ensures |pairs| > 0 && count > 0 ==> |variations| > 0
    ensures forall v :: v in variations ==> SplitsPairs(v, pairs)
    ensures DistinctSignatures(variations)
  {
    if |pairs| == 0 {
      return [], 0, cursor;
    }
    variations, attempts := CollectFirsts(DrawFn(pairs, rng, cursor), LineupSignature, count, count * 10);
    next := cursor + AttemptDraws(attempts, |pairs|);
    KeptSound(pairs, rng, cursor, attempts);
  }

  /** With a single pair only two lineups exist, so at most two can have
      distinct signatures. */
  lemma AtMostTwoForOnePair(vs: seq<Lineup>, p: Pair)
    requires forall v :: v in vs ==> SplitsPairs(v, [p])
    requires DistinctSignatures(vs)
    ensures |vs| <= 2
  {
    if |vs| > 2 {
      OnePairLineup(vs[0], p);
      OnePairLineup(vs[1], p);
      OnePairLineup(vs[2], p);
    }
  }

  /** The lineups that split a single pair: both orientations do, nothing
      else does, and the two are different lineups exactly when the pair
      holds two different players. */
  lemma OnePairLineup(v: Lineup, p: Pair)
    requires SplitsPairs(v, [p])
    ensures v == Lineup([p.player1], [p.player2]) || v == Lineup([p.player2], [p.player1])
    ensures SplitsPairs(Lineup([p.player1], [p.player2]), [p])
    ensures SplitsPairs(Lineup([p.player2], [p.player1]), [p])
    ensures Lineup([p.player1], [p.player2]) != Lineup([p.player2], [p.player1]) <==> p.player1 != p.player2
  {
    var order :| multiset(order) == multiset([p]) && SplitsInOrder(v, order);
    assert |order| == |multiset(order)| == 1;
    assert order[0] in multiset([p]);
    assert v.teamA == [v.teamA[0]] && v.teamB == [v.teamB[0]];
    assert SplitsInOrder(Lineup([p.player1], [p.player2]), [p]);
    assert SplitsInOrder(Lineup([p.player2], [p.player1]), [p]);
  }

  /** `canGenerateTeams(pairs)`: at least two paired players. */
  function CanGenerateTeams(pairs: seq<Pair>): (b: bool)
    ensures b <==> |pairs| >= 1
  {
    |pairs| * 2 >= 2
  }
}

=== FILE: types.dfy ===
/** The records the roster screen and the lineup generator exchange. */
module Types {

  /** JavaScript's `null`/`undefined` versus a present value. */
  datatype Option<T> = None | Some(value: T)

  /** A roster entry `{ id, name }`; ids look like `player-7`. */
  datatype Player = Player(id: string, name: string)

  /** A forced-opposite pair `{ id, player1, player2 }`; ids look like `pair-3`. */
  datatype Pair = Pair(id: string, player1: Player, player2: Player)

  /** One generated split `{ teamA, teamB }`. */
  datatype Lineup = Lineup(teamA: seq<Player>, teamB: seq<Player>)

  /** Both members of every pair, pair by pair: player1, player2, player1, ... */
  function Members(pairs: seq<Pair>): (r: seq<Player>)
    ensures |r| == 2 * |pairs|
    decreases |pairs|
  {
    if |pairs| == 0 then []
    else Members(pairs[..|pairs| - 1]) + [pairs[|pairs| - 1].player1, pairs[|pairs| - 1].player2]
  }

  /** Everyone in `Members(pairs)` belongs to some pair. */
  lemma {:induction false} MemberOfSomePair(pairs: seq<Pair>, x: Player)
    requires x in Members(pairs)
    ensures exists q :: q in pairs && (x == q.player1 || x == q.player2)
    decreases |pairs|
  {
    var init, last := pairs[..|pairs| - 1], pairs[|pairs| - 1];
    if x in Members(init) {
      MemberOfSomePair(init, x);
      var q :| q in init && (x == q.player1 || x == q.player2);
      assert q in pairs;
    } else {
      assert x == last.player1 || x == last.player2;
    }
  }

  lemma {:induction false} MembersConcat(a: seq<Pair>, b: seq<Pair>)
    ensures Members(a + b) == Members(a) + Members(b)
    decreases |b|
  {
    if |b| == 0 {
      assert a + b == a;
    } else {
      var b', p := b[..|b| - 1], b[|b| - 1];
      assert (a + b)[..|a + b| - 1] == a + b';
      assert (a + b)[|a + b| - 1] == p;
      MembersConcat(a, b');
    }
  }

  /** The multiset of members depends only on the multiset of pairs, so
      reordering the pairs (as the shuffle does) reorders their members. */
  lemma {:induction false} MembersPermutation(a: seq<Pair>, b: seq<Pair>)
    requires multiset(a) == multiset(b)
    ensures multiset(Members(a)) == multiset(Members(b))
    decreases |a|
  {
    if |a| == 0 {
      assert |b| == |multiset(b)| == 0;
      return;
    }
    var x := a[0];
    assert x in multiset(b);
    var i :| 0 <= i < |b| && b[i] == x;
    var b' := b[..i] + b[i + 1..];
    MultisetRemoveAt(b, i);
    assert a == [x] + a[1..];
    assert multiset(a) == multiset{x} + multiset(a[1..]);
    MultisetCancel(x, multiset(a[1..]), multiset(b'));
    MembersPermutation(a[1..], b');
    SplitAt(b, i);
    MembersMoveFront(x, a[1..], b[..i], b[i + 1..]);
  }

  lemma MembersMoveFront(x: Pair, rest: seq<Pair>, l: seq<Pair>, r: seq<Pair>)
    requires multiset(Members(rest)) == multiset(Members(l + r))
    ensures multiset(Members([x] + rest)) == multiset(Members(l + [x] + r))
  {
    MembersConcat([x], rest);
    MembersConcat(l, r);
    MembersConcat(l, [x]);
    MembersConcat(l + [x], r);
    MultisetMoveFront(Members([x]), Members(rest), Members(l), Members(r));
  }

  lemma MultisetMoveFront<T>(x: seq<T>, rest: seq<T>, l: seq<T>, r: seq<T>)
    requires multiset(rest) == multiset(l + r)
    ensures multiset(x + rest) == multiset(l + x + r)
  {
  }

  lemma MultisetCancel<T>(x: T, m: multiset<T>, n: multiset<T>)
    requires multiset{x} + m == multiset{x} + n
    ensures m == n
  {
    forall y ensures m[y] == n[y] {
      assert (multiset{x} + m)[y] == (multiset{x} + n)[y];
    }
  }

  lemma SplitAt<T>(s: seq<T>, i: nat)
    requires i < |s|
    ensures s == (s[..i] + [s[i]]) + s[i + 1..]
  {
  }

  lemma MultisetRemoveAt<T>(s: seq<T>, i: nat)
    requires i < |s|
    ensures multiset(s) == multiset{s[i]} + multiset(s[..i] + s[i + 1..])
  {
    SplitAt(s, i);
  }

  /** Ids are pairwise distinct. */
  predicate DistinctIds(ps: seq<Player>) {
    forall i, j :: 0 <= i < |ps| && 0 <= j < |ps| && i != j ==> ps[i].id != ps[j].id
  }
}
